=== FILE: README.md ===
# Fretboard learner: a verified model of its logic

The fretboard learner is an Android app that quizzes a guitarist on intervals. It shows a root
note on the neck inside a four-fret window, asks for the note a given interval above it, and
confirms the answer by listening to the microphone. This project models the parts of the app
that carry logic and proves what they do:

- `music_theory.dfy` (module `MusicTheory`): the chromatic scale, the interval catalogue, keys
  built from the major and natural-minor patterns, interval transposition and the staff offset
  of a note letter.
- `fretboard.dfy` (module `Fretboard`): the fretboard map from each note name to every
  (string, fret) that sounds it in standard tuning. It is built by a nested loop
  (`BuildFretboardMap`) and proved equal to its definition. The module also holds the two
  position helpers that compute scale boxes.
- `fretboard_trainer.dfy` (module `FretboardTrainer`): the quiz view model. It is a class whose
  one state record is replaced by `SetRootNote`, `SetPosition`, `SetIntervalDisplayMode`,
  `MarkAsCorrect` and `GenerateNewQuestion`. Each method is proved against a function on states.
- `audio_input.dfy` (module `AudioInput`): the answer-confirmation view model. Its pitch handler
  counts consecutive events naming the target, raises the "heard" flag at five, and stops.
- `pitch_to_note.dfy` (module `PitchToNote`): naming the pitch class of a MIDI note number.
- `wrappers.dfy`: the `Option` type standing for Kotlin's nullable values.

Two details of the listening code shape the model:

- Starting to listen while a session already runs keeps that session. The code creates a
  dispatcher only when none exists; it does not tear the old one down first.
- The pitch handler itself has no "armed" check. Events simply stop arriving once the dispatcher
  is stopped. `RunSession` delivers events only while a session runs, and `OnPitch` handles
  whatever it is given.

The interval of a question is drawn at random in the app. Here it is the argument
`intervalIndex` into the catalogue. Whether the microphone can be opened is the argument
`microphoneAvailable`.

## Model

| member | source | states |
|---|---|---|
| MusicTheory.IndexOf | app/src/main/java/com/example/fretboardlearner/data/model/MusicTheory.kt:58 | the first index holding the name, or -1 exactly when no entry holds it |
| MusicTheory.IndexFrom | app/src/main/java/com/example/fretboardlearner/data/model/MusicTheory.kt:58 | the same search started at a given index |
| MusicTheory.NoteIndex | app/src/main/java/com/example/fretboardlearner/data/model/MusicTheory.kt:58 | -1 exactly for a name outside the chromatic scale, otherwise an index holding the name |
| MusicTheory.ChromaticScaleDistinct | app/src/main/java/com/example/fretboardlearner/data/model/MusicTheory.kt:15 | the twelve note names are pairwise different |
| MusicTheory.NoteIndexOfScale | app/src/main/java/com/example/fretboardlearner/data/model/MusicTheory.kt:58 | looking up note k of the chromatic scale gives back k |
| MusicTheory.ScalePattern | app/src/main/java/com/example/fretboardlearner/data/model/MusicTheory.kt:57 | "Major" selects the major pattern; every other scale type selects the natural minor |
| MusicTheory.GenerateKey | app/src/main/java/com/example/fretboardlearner/data/model/MusicTheory.kt:56-65 | the key's name is the root, a space and the scale type, whether or not the root is known |
| MusicTheory.KeyOnIndex | app/src/main/java/com/example/fretboardlearner/data/model/MusicTheory.kt:58-64 | an unknown root gives no notes; a known root gives one note per pattern offset, note i being the scale note (root index + offset i) mod 12 |
| MusicTheory.NotesAbove | app/src/main/java/com/example/fretboardlearner/data/model/MusicTheory.kt:61-63 | one note per offset, each the scale note that many semitones above the root, wrapping at the octave |
| MusicTheory.KeyOnScaleNote | app/src/main/java/com/example/fretboardlearner/data/model/MusicTheory.kt:56-65 | the key on note k of the scale has exactly the notes at the pattern's offsets above k |
| MusicTheory.KeyOnUnknownRoot | app/src/main/java/com/example/fretboardlearner/data/model/MusicTheory.kt:58-59 | a root that is not a note name gives an empty key |
| MusicTheory.PatternsClimbWithinOctave | app/src/main/java/com/example/fretboardlearner/data/model/MusicTheory.kt:29-30 | both patterns have seven offsets that start at 0, strictly rise and stay below 12 |
| MusicTheory.KeyStartsOnRoot | app/src/main/java/com/example/fretboardlearner/data/model/MusicTheory.kt:56-65 | a key on a note name has seven notes and starts on its root |
| MusicTheory.NotesAboveRoot | app/src/main/java/com/example/fretboardlearner/data/model/MusicTheory.kt:61-63 | a pattern starting at offset 0 starts on the root |
| MusicTheory.KeyNotesDistinct | app/src/main/java/com/example/fretboardlearner/data/model/MusicTheory.kt:56-65 | the seven notes of a key are pairwise different |
| MusicTheory.NotesAboveDistinct | app/src/main/java/com/example/fretboardlearner/data/model/MusicTheory.kt:61-63 | offsets that rise within an octave give pairwise different notes |
| MusicTheory.ScaleNamesDiffer | app/src/main/java/com/example/fretboardlearner/data/model/MusicTheory.kt:15 | different indices of the chromatic scale hold different names |
| MusicTheory.RelativeMinorSharesNotes | app/src/main/java/com/example/fretboardlearner/data/model/MusicTheory.kt:56-65 | the major key on note k and the minor key on note k + 9 contain the same notes |
| MusicTheory.RelativeMinorNotes | app/src/main/java/com/example/fretboardlearner/data/model/MusicTheory.kt:61-63 | the same, stated on the notes above the two roots |
| MusicTheory.RelativeMinorDegree | app/src/main/java/com/example/fretboardlearner/data/model/MusicTheory.kt:29-30 | degree j of the relative minor is degree (j + 5) mod 7 of the major |
| MusicTheory.RelativeMinorOffset | app/src/main/java/com/example/fretboardlearner/data/model/MusicTheory.kt:29-30 | the offsets of the two patterns line up that way modulo 12 |
| MusicTheory.UnknownRootUnchanged | app/src/main/java/com/example/fretboardlearner/data/model/MusicTheory.kt:69-70 | an unknown root is returned unchanged by the interval lookup |
| MusicTheory.IntervalAboveScaleNote | app/src/main/java/com/example/fretboardlearner/data/model/MusicTheory.kt:68-73 | from note k of the scale, an interval lands on note (k + semitones) mod 12, so on a note name |
| MusicTheory.FindNoteForInterval | app/src/main/java/com/example/fretboardlearner/data/model/MusicTheory.kt:68-73 | a root outside the chromatic scale comes back unchanged; otherwise the result is the scale name whose index is the root's index plus the width, modulo 12 |
| MusicTheory.IntervalAboveIndexedNote | app/src/main/java/com/example/fretboardlearner/data/model/MusicTheory.kt:69-72 | the same, for a root whose lookup gives k |
| MusicTheory.IntervalsCompose | app/src/main/java/com/example/fretboardlearner/data/model/MusicTheory.kt:68-73 | moving up by a and then by b equals moving up by a + b, for every root |
| MusicTheory.OctaveReturnsToRoot | app/src/main/java/com/example/fretboardlearner/data/model/MusicTheory.kt:68-73 | a whole number of octaves leads back to the root |
| MusicTheory.IntervalKeepsNoteIffOctaves | app/src/main/java/com/example/fretboardlearner/data/model/MusicTheory.kt:71-72 | from a note name, an interval gives back the same note if and only if it spans whole octaves |
| MusicTheory.CatalogueIntervalsWithinOctave | app/src/main/java/com/example/fretboardlearner/data/model/MusicTheory.kt:19-26 | every catalogue interval spans 1 to 7 semitones |
| MusicTheory.CatalogueTargetDiffers | app/src/main/java/com/example/fretboardlearner/data/model/MusicTheory.kt:19-26 | a catalogue interval above a scale note never lands back on that note, so a question's target always differs from its root |
| MusicTheory.GetStaffPosition | app/src/main/java/com/example/fretboardlearner/data/model/MusicTheory.kt:134-137 | the offset of the note's first letter, and 0 for a letter outside A to G |
| MusicTheory.StaffPositionIgnoresSuffix | app/src/main/java/com/example/fretboardlearner/data/model/MusicTheory.kt:134-137 | only the first character counts: appending anything keeps the offset |
| MusicTheory.SharpSharesNaturalStaffPosition | app/src/main/java/com/example/fretboardlearner/data/model/MusicTheory.kt:129-137 | each sharp sits at the offset of the natural note below it |
| MusicTheory.NaturalNotesDescendOneStep | app/src/main/java/com/example/fretboardlearner/data/model/MusicTheory.kt:129-132 | from C up to B each natural note sits one step lower on the staff than the one before |
| Fretboard.OpenNoteIndicesMatchTuning | app/src/main/java/com/example/fretboardlearner/data/model/MusicTheory.kt:37-38 | the open-string table equals looking each tuning note up in the chromatic scale |
| Fretboard.CellNote | app/src/main/java/com/example/fretboardlearner/data/model/MusicTheory.kt:40-41 | a cell sounds its string's open note moved up by the fret, wrapping at the octave |
| Fretboard.NoteAt | app/src/main/java/com/example/fretboardlearner/data/model/MusicTheory.kt:40-41 | the note of a cell; its partners `CellNote` and `NoteAtScaleIndex` state that it is the open note moved up by the fret, wrapping at the octave, and always a scale name |
| Fretboard.BoardCells | app/src/main/java/com/example/fretboardlearner/data/model/MusicTheory.kt:36-42 | the 96 cells in loop order: cell k is string k div 16 + 1, fret k mod 16 |
| Fretboard.BoardCellAt | app/src/main/java/com/example/fretboardlearner/data/model/MusicTheory.kt:36-42 | the cell of a string and fret sits at index string index * 16 + fret |
| Fretboard.BoardCellsComplete | app/src/main/java/com/example/fretboardlearner/data/model/MusicTheory.kt:36-39 | every position of strings 1-6 and frets 0-15 is visited |
| Fretboard.PositionsOf | app/src/main/java/com/example/fretboardlearner/data/model/MusicTheory.kt:44-47 | the cells of a list that sound the note, and no others |
| Fretboard.PositionsOfAppend | app/src/main/java/com/example/fretboardlearner/data/model/MusicTheory.kt:44-47 | visiting one more cell appends it to its own note's list and to no other |
| Fretboard.AppendCellKeepsIndex | app/src/main/java/com/example/fretboardlearner/data/model/MusicTheory.kt:44-47 | one step of the loop keeps every key's list equal to the cells visited so far that sound it |
| Fretboard.LookUpOpenNote | app/src/main/java/com/example/fretboardlearner/data/model/MusicTheory.kt:37-38 | the index of the open note, which names the string's tuning note |
| Fretboard.BuildFretboardMap | app/src/main/java/com/example/fretboardlearner/data/model/MusicTheory.kt:34-51 | the nested loop builds exactly the map of every note to the cells that sound it |
| Fretboard.IndexOfBoardIsFretboardMap | app/src/main/java/com/example/fretboardlearner/data/model/MusicTheory.kt:34-51 | a map whose lists are the sounding cells of the whole board is that map |
| Fretboard.NoteAtScaleIndex | app/src/main/java/com/example/fretboardlearner/data/model/MusicTheory.kt:40-41 | every cell sounds a name of the chromatic scale |
| Fretboard.ScaleNoteSounds | app/src/main/java/com/example/fretboardlearner/data/model/MusicTheory.kt:36-48 | every note name sounds somewhere on the board |
| Fretboard.FretboardMapListsEachPositionOnce | app/src/main/java/com/example/fretboardlearner/data/model/MusicTheory.kt:34-51 | every board position is in the list of the note it sounds, and a listed position sounds the note it is listed under, so it is in exactly one list |
| Fretboard.FretboardMapKeys | app/src/main/java/com/example/fretboardlearner/data/model/MusicTheory.kt:32-51 | the keys are exactly the twelve note names, each with a non-empty list |
| Fretboard.FretboardMap | app/src/main/java/com/example/fretboardlearner/data/model/MusicTheory.kt:32-51 | the note-to-positions table as a definition; `BuildFretboardMap` builds it with the nested loop, `FretboardMapKeys` gives its keys, `FretboardMapListsEachPositionOnce` its lists |
| Fretboard.EStringSounds | app/src/main/java/com/example/fretboardlearner/data/model/MusicTheory.kt:36-42 | both E strings sound note k of the scale at fret (k + 8) mod 12 |
| Fretboard.NoteInEveryFourFretWindow | app/src/main/java/com/example/fretboardlearner/data/model/MusicTheory.kt:36-48 | every note name has a listed position in every four-fret window starting at frets 0 to 11 |
| Fretboard.CellInWindow | app/src/main/java/com/example/fretboardlearner/data/model/MusicTheory.kt:36-42 | a board position sounding note k exists inside each such window |
| Fretboard.StringReachingNote | app/src/main/java/com/example/fretboardlearner/data/model/MusicTheory.kt:33 | the open strings are at most three semitones apart around the octave, so some string reaches each note within four frets |
| Fretboard.BoardCellsInOrder | app/src/main/java/com/example/fretboardlearner/data/model/MusicTheory.kt:36-39 | the loop visits cells string by string, frets rising on each string |
| Fretboard.PositionsOfInOrder | app/src/main/java/com/example/fretboardlearner/data/model/MusicTheory.kt:44-47 | the list of a note keeps the visiting order |
| Fretboard.FretboardMapInBoardOrder | app/src/main/java/com/example/fretboardlearner/data/model/MusicTheory.kt:36-48 | every list of the map is ordered by string, then by fret |
| Fretboard.CountEntriesOfMap | app/src/main/java/com/example/fretboardlearner/data/model/MusicTheory.kt:34-51 | the lists of the map hold as many entries as there are board cells sounding the notes counted |
| Fretboard.TotalPositionsOfPrefix | app/src/main/java/com/example/fretboardlearner/data/model/MusicTheory.kt:36-48 | each visited cell is counted under exactly one note name |
| Fretboard.TotalPositionsOfBoard | app/src/main/java/com/example/fretboardlearner/data/model/MusicTheory.kt:36-48 | counted over the twelve names, the board has 96 sounding cells |
| Fretboard.FretboardMapHas96Positions | app/src/main/java/com/example/fretboardlearner/data/model/MusicTheory.kt:34-51 | the lists of the map hold 96 entries in total |
| Fretboard.FirstOnString | app/src/main/java/com/example/fretboardlearner/data/model/MusicTheory.kt:79 | the first index on the given string, or -1 exactly when none of the list is on it |
| Fretboard.AnchorFret | app/src/main/java/com/example/fretboardlearner/data/model/MusicTheory.kt:79-80 | the anchor is a fret of the board |
| Fretboard.AnchorOfUnknownNote | app/src/main/java/com/example/fretboardlearner/data/model/MusicTheory.kt:79-80 | a name outside the chromatic scale has no list, so its anchor is fret 0 |
| Fretboard.AnchorIn | app/src/main/java/com/example/fretboardlearner/data/model/MusicTheory.kt:79-80 | the anchor taken from a list of board positions is a fret of the board; `FirstOnString` states which entry it reads, and `AnchorOfScaleNote` and `AnchorOfUnknownNote` give its value for the map's lists |
| Fretboard.AnchorOfScaleNote | app/src/main/java/com/example/fretboardlearner/data/model/MusicTheory.kt:79-80 | the anchor of note k is (k + 8) mod 12, the lowest fret sounding it on the low E string |
| Fretboard.FirstOnStringIsLowest | app/src/main/java/com/example/fretboardlearner/data/model/MusicTheory.kt:79 | in board order, the first entry on a string has the lowest fret among that string's entries |
| Fretboard.LowStringFret | app/src/main/java/com/example/fretboardlearner/data/model/MusicTheory.kt:36-41 | below fret 12 the low E string sounds note k only at fret (k + 8) mod 12 |
| Fretboard.GetOrElse | app/src/main/java/com/example/fretboardlearner/data/model/MusicTheory.kt:90 | the value at an index, or the default outside the sequence, as Kotlin `getOrElse`; `GetPositionStartFret` and `ScalePositionStartFret` state the start frets it yields |
| Fretboard.GetPositionStartFret | app/src/main/java/com/example/fretboardlearner/data/model/MusicTheory.kt:78-91 | the start fret is never negative, and 0 for a position index outside 0 to 4 |
| Fretboard.ScalePositionStartFret | app/src/main/java/com/example/fretboardlearner/data/model/MusicTheory.kt:98-111 | the same for the wrapping variant |
| Fretboard.StartFretsOfScaleKey | app/src/main/java/com/example/fretboardlearner/data/model/MusicTheory.kt:78-111 | for the key on note k, position i starts at (k + 8) mod 12 + offset i, values below 1 clamped to 0 in one helper, negative values wrapped up by 12 in the other |
| Fretboard.StartFretsAgreeAboveNut | app/src/main/java/com/example/fretboardlearner/data/model/MusicTheory.kt:82-111 | the two helpers agree if and only if the index is out of range or the anchor plus the offset is not negative |
| Fretboard.KeyPositions | app/src/main/java/com/example/fretboardlearner/data/model/MusicTheory.kt:116 | exactly the board positions sounding a note of the key |
| Fretboard.FilterInBox | app/src/main/java/com/example/fretboardlearner/data/model/MusicTheory.kt:119-126 | exactly the positions of the list inside the box |
| Fretboard.GenerateScaleInPosition | app/src/main/java/com/example/fretboardlearner/data/model/MusicTheory.kt:96-127 | exactly the board positions that sound a key note and lie in the box: open strings only when the start fret is at most 2, other frets from the start fret to four above it |
| Fretboard.InScaleBox | app/src/main/java/com/example/fretboardlearner/data/model/MusicTheory.kt:121-125 | the filter of the scale box: an open string only when the start fret is at most 2, any other fret from the start fret to four above it; `GenerateScaleInPosition` states what it keeps |
| PitchToNote.FrequencyToNoteName | app/src/main/java/com/example/fretboardlearner/data/model/PitchToNoteConverter.kt:8-23 | a name exactly when the frequency is positive and the MIDI number is in 0..127, and then the name of the number's pitch class |
| PitchToNote.NoteNamesAreChromaticScale | app/src/main/java/com/example/fretboardlearner/data/model/PitchToNoteConverter.kt:4 | the converter's names are the quiz's chromatic scale, entry by entry |
| PitchToNote.NamesAreNoteNames | app/src/main/java/com/example/fretboardlearner/data/model/PitchToNoteConverter.kt:21-23 | every name produced is a note name of the quiz |
| PitchToNote.OctaveInvariant | app/src/main/java/com/example/fretboardlearner/data/model/PitchToNoteConverter.kt:21-23 | MIDI numbers twelve apart get the same name |
| PitchToNote.NamedAfterScaleNote | app/src/main/java/com/example/fretboardlearner/data/model/PitchToNoteConverter.kt:9-23 | a pitch is named after note k if and only if the frequency is positive, the number is in range and the number mod 12 is k |
| PitchToNote.ConcertPitchNames | app/src/main/java/com/example/fretboardlearner/data/model/PitchToNoteConverter.kt:5-23 | MIDI 69 (440 Hz) is named A and MIDI 70 is named A# |
| FretboardTrainer.InWindow | app/src/main/java/com/example/fretboardlearner/ui/viewmodel/FretboardTrainerViewModel.kt:80 | the window of a question: a position lies in it when its fret is at least the start fret and below the start fret plus 4; `FilterWindow` keeps exactly such positions |
| FretboardTrainer.FilterWindow | app/src/main/java/com/example/fretboardlearner/ui/viewmodel/FretboardTrainerViewModel.kt:79-81 | exactly the positions of the list with start fret <= fret < start fret + 4 |
| FretboardTrainer.FilterWindowInOrder | app/src/main/java/com/example/fretboardlearner/ui/viewmodel/FretboardTrainerViewModel.kt:79-81 | filtering keeps board order |
| FretboardTrainer.HeadComesFirst | app/src/main/java/com/example/fretboardlearner/ui/viewmodel/FretboardTrainerViewModel.kt:87 | the first entry of a list in board order comes before every other entry |
| FretboardTrainer.Distance | app/src/main/java/com/example/fretboardlearner/ui/viewmodel/FretboardTrainerViewModel.kt:95 | how near two positions are: strings apart plus frets apart (Manhattan distance); `NearestIndex`, `NearestListedPosition` and `TargetPositionIsNearest` minimise it |
| FretboardTrainer.NearestIndex | app/src/main/java/com/example/fretboardlearner/ui/viewmodel/FretboardTrainerViewModel.kt:94-96 | -1 exactly for an empty list; otherwise an entry whose `Distance` (strings apart plus frets apart) is no larger than any other entry's, and strictly smaller than every earlier one's (the first minimum) |
| FretboardTrainer.NearestAfter | app/src/main/java/com/example/fretboardlearner/ui/viewmodel/FretboardTrainerViewModel.kt:94-96 | the scan keeps the nearest entry so far, replacing it only by a strictly nearer one |
| FretboardTrainer.RootPositionInWindow | app/src/main/java/com/example/fretboardlearner/ui/viewmodel/FretboardTrainerViewModel.kt:79-87 | a position exactly when the root has a list with an entry in the window, and then a listed entry in the window |
| FretboardTrainer.NearestListedPosition | app/src/main/java/com/example/fretboardlearner/ui/viewmodel/FretboardTrainerViewModel.kt:93-96 | a position exactly when the note has a non-empty list, and then a listed entry no farther from the root position than any other listed entry |
| FretboardTrainer.NewQuestion | app/src/main/java/com/example/fretboardlearner/ui/viewmodel/FretboardTrainerViewModel.kt:74-104 | a question exactly when the root has a listed position in the window and the target note a non-empty list; it then holds the root, the interval, the transposed target, a listed root position in the window and a listed target position |
| FretboardTrainer.Regenerated | app/src/main/java/com/example/fretboardlearner/ui/viewmodel/FretboardTrainerViewModel.kt:73-114 | root, window and display mode are kept; the state is unchanged exactly when no question can be made; otherwise the question is stored, the id rises by one, the question is active and the feedback cleared |
| FretboardTrainer.MarkedCorrect | app/src/main/java/com/example/fretboardlearner/ui/viewmodel/FretboardTrainerViewModel.kt:63-71 | the question ends up inactive; feedback becomes "Correct!" only if it was active; nothing else changes |
| FretboardTrainer.NearestIsFirstOfEquals | app/src/main/java/com/example/fretboardlearner/ui/viewmodel/FretboardTrainerViewModel.kt:94-96 | in a list in board order, an entry as near as the chosen one comes after it on the board |
| FretboardTrainer.RootPositionIsFirstInWindow | app/src/main/java/com/example/fretboardlearner/ui/viewmodel/FretboardTrainerViewModel.kt:79-87 | a root position exists if and only if some board position in the window sounds the root; it sounds the root, lies in the window and comes first on the board among all such positions |
| FretboardTrainer.TargetPositionIsNearest | app/src/main/java/com/example/fretboardlearner/ui/viewmodel/FretboardTrainerViewModel.kt:90-96 | a target position exists if and only if the note is a note name; it sounds the note, is no farther from the root position than any position sounding the note, and comes first on the board among equally near ones |
| FretboardTrainer.NewQuestionIsSound | app/src/main/java/com/example/fretboardlearner/ui/viewmodel/FretboardTrainerViewModel.kt:73-104 | a question is made if and only if some position in the window sounds the root; it asks for the interval above the root, and its positions sound the root (inside the window) and the target note |
| FretboardTrainer.NewQuestionPicksFirstAndNearest | app/src/main/java/com/example/fretboardlearner/ui/viewmodel/FretboardTrainerViewModel.kt:79-96 | the question's root position comes first on the board among the window's positions sounding the root; its target position is no farther from the root position than any position sounding the target note, and comes first on the board among equally near ones |
| FretboardTrainer.SelectionAlwaysGivesQuestion | app/src/main/java/com/example/fretboardlearner/ui/viewmodel/FretboardTrainerViewModel.kt:73-104 | for a root that is a note name and any window 0 to 11 the screen offers, a question is always made |
| FretboardTrainer.SelectableRootsAreNoteNames | app/src/main/java/com/example/fretboardlearner/ui/viewmodel/FretboardTrainerViewModel.kt:40 | the seven roots the screen offers are note names |
| FretboardTrainer.InitialStateAsksQuestion | app/src/main/java/com/example/fretboardlearner/ui/viewmodel/FretboardTrainerViewModel.kt:45-47 | the first question from the initial state always succeeds: id 1, a question, active |
| FretboardTrainer.MarkedCorrectIdempotent | app/src/main/java/com/example/fretboardlearner/ui/viewmodel/FretboardTrainerViewModel.kt:63-71 | marking correct twice equals marking correct once |
| FretboardTrainer.FretboardTrainerViewModel.constructor | app/src/main/java/com/example/fretboardlearner/ui/viewmodel/FretboardTrainerViewModel.kt:36-47 | the table is the fretboard map and the state is the initial state after one regeneration |
| FretboardTrainer.FretboardTrainerViewModel.SetRootNote | app/src/main/java/com/example/fretboardlearner/ui/viewmodel/FretboardTrainerViewModel.kt:49-52 | the new root is stored and then the state regenerated |
| FretboardTrainer.FretboardTrainerViewModel.SetPosition | app/src/main/java/com/example/fretboardlearner/ui/viewmodel/FretboardTrainerViewModel.kt:54-57 | the new window is stored and then the state regenerated |
| FretboardTrainer.FretboardTrainerViewModel.SetIntervalDisplayMode | app/src/main/java/com/example/fretboardlearner/ui/viewmodel/FretboardTrainerViewModel.kt:59-61 | only the display mode changes |
| FretboardTrainer.FretboardTrainerViewModel.MarkAsCorrect | app/src/main/java/com/example/fretboardlearner/ui/viewmodel/FretboardTrainerViewModel.kt:63-71 | the state becomes its marked-correct form |
| FretboardTrainer.FretboardTrainerViewModel.GenerateNewQuestion | app/src/main/java/com/example/fretboardlearner/ui/viewmodel/FretboardTrainerViewModel.kt:73-114 | the early returns and the final update produce exactly the regenerated state |
| AudioInput.Matches | app/src/main/java/com/example/fretboardlearner/ui/viewmodel/AudioInputViewModel.kt:50 | an event matches when it is a pitch whose name equals the target, so an unnamed pitch matches a cleared target; `Handled` counts on it and `StoppedTargetMatchesUnnamedPitch` records the unnamed case |
| AudioInput.ListenedFor | app/src/main/java/com/example/fretboardlearner/ui/viewmodel/AudioInputViewModel.kt:32-40 | the target is set, the count is 0, the flag is cleared; a session runs if one ran or the microphone opens |
| AudioInput.Stopped | app/src/main/java/com/example/fretboardlearner/ui/viewmodel/AudioInputViewModel.kt:78-85 | no session, no target, count 0; the flag is kept |
| AudioInput.Handled | app/src/main/java/com/example/fretboardlearner/ui/viewmodel/AudioInputViewModel.kt:43-64 | the flag rises exactly when a match brings the count to 5, and then listening stops; otherwise session and target are kept and the count is one more after a match and 0 after anything else |
| AudioInput.DispatchedAppend | app/src/main/java/com/example/fretboardlearner/ui/viewmodel/AudioInputViewModel.kt:43-64 | handling two batches of events in turn equals handling them together |
| AudioInput.Dispatched | app/src/main/java/com/example/fretboardlearner/ui/viewmodel/AudioInputViewModel.kt:43-70 | the events a session delivers, handled in order until the session stops; `DispatchedAppend` splits it into batches and `RunSession` computes it with a loop |
| AudioInput.CounterStaysBelowThreshold | app/src/main/java/com/example/fretboardlearner/ui/viewmodel/AudioInputViewModel.kt:50-60 | after any events the count stays between 0 and 4 |
| AudioInput.MatchesBelowThreshold | app/src/main/java/com/example/fretboardlearner/ui/viewmodel/AudioInputViewModel.kt:50-60 | fewer matches than the threshold only raise the count; nothing fires and the session goes on |
| AudioInput.FiveMatchesFire | app/src/main/java/com/example/fretboardlearner/ui/viewmodel/AudioInputViewModel.kt:50-60 | after listenFor with a session, five matching events raise the flag and stop listening |
| AudioInput.FourMatchesThenMismatch | app/src/main/java/com/example/fretboardlearner/ui/viewmodel/AudioInputViewModel.kt:50-60 | four matches and then a different event do not fire, and the count is back at 0 |
| AudioInput.FiringNeedsConsecutiveMatches | app/src/main/java/com/example/fretboardlearner/ui/viewmodel/AudioInputViewModel.kt:45-60 | the flag rises only if the events open with the matches still missing from the count, or contain five consecutive matches |
| AudioInput.OpeningRunFires | app/src/main/java/com/example/fretboardlearner/ui/viewmodel/AudioInputViewModel.kt:43-64 | a running session whose opening events supply the matches still missing from the count raises the flag |
| AudioInput.RunOfMatchesFires | app/src/main/java/com/example/fretboardlearner/ui/viewmodel/AudioInputViewModel.kt:43-64 | five consecutive events naming the target anywhere in what a running session delivers raise the flag |
| AudioInput.HeardExactlyAfterFiveMatches | app/src/main/java/com/example/fretboardlearner/ui/viewmodel/AudioInputViewModel.kt:32-64 | after listenFor, the flag rises exactly when a session runs and five consecutive events name the target |
| AudioInput.NoSessionNeverFires | app/src/main/java/com/example/fretboardlearner/ui/viewmodel/AudioInputViewModel.kt:39-74 | when the microphone cannot be opened and no session ran, no event is delivered and nothing is heard |
| AudioInput.SilenceResets | app/src/main/java/com/example/fretboardlearner/ui/viewmodel/AudioInputViewModel.kt:61-63 | silence sets the count to 0 and changes nothing else |
| AudioInput.StoppedIdempotent | app/src/main/java/com/example/fretboardlearner/ui/viewmodel/AudioInputViewModel.kt:78-85 | stopping twice equals stopping once |
| AudioInput.StoppedTargetMatchesUnnamedPitch | app/src/main/java/com/example/fretboardlearner/ui/viewmodel/AudioInputViewModel.kt:50 | after stopping, an unnamed pitch equals the cleared target and would count as a match, but no session delivers it |
| AudioInput.AudioInputViewModel.constructor | app/src/main/java/com/example/fretboardlearner/ui/viewmodel/AudioInputViewModel.kt:16-26 | no session, no target, count 0, flag down |
| AudioInput.AudioInputViewModel.ListenFor | app/src/main/java/com/example/fretboardlearner/ui/viewmodel/AudioInputViewModel.kt:32-37 | the fields become their listened-for form |
| AudioInput.AudioInputViewModel.StartDispatcher | app/src/main/java/com/example/fretboardlearner/ui/viewmodel/AudioInputViewModel.kt:39-76 | a session runs afterwards if one ran or the microphone opened; nothing else changes |
| AudioInput.AudioInputViewModel.OnPitch | app/src/main/java/com/example/fretboardlearner/ui/viewmodel/AudioInputViewModel.kt:43-64 | the fields become their handled form for the event |
| AudioInput.AudioInputViewModel.RunSession | app/src/main/java/com/example/fretboardlearner/ui/viewmodel/AudioInputViewModel.kt:66-70 | handling the events one by one while the session runs gives the dispatched state |
| AudioInput.AudioInputViewModel.StopListening | app/src/main/java/com/example/fretboardlearner/ui/viewmodel/AudioInputViewModel.kt:78-85 | the fields become their stopped form |
| AudioInput.AudioInputViewModel.OnCleared | app/src/main/java/com/example/fretboardlearner/ui/viewmodel/AudioInputViewModel.kt:87-90 | the fields become their stopped form |

## Left out

- The floating-point step of the converter (twelve times the base-2 logarithm of the frequency over 440 Hz, plus 69, rounded) is not modelled. `FrequencyToNoteName` takes the rounded MIDI number as an argument, and the frequency as a `real` only for the sign test.
- The TarsosDSP dispatcher, the YIN pitch processor, the background thread, the sample rate and buffer constants and `Log.e` are not modelled. They are a foreign library, concurrency and logging. A running dispatcher is the flag `sessionActive`. A failure to open the microphone is the argument `microphoneAvailable` being false. Events are handled one at a time, in order.
- The random choice of the interval is the argument `intervalIndex`.
- The `targetPositions.random()` fallback is not modelled. It applies only to an empty position list, and no list of the map is empty (`FretboardMapKeys`). `NearestListedPosition` returns none for an empty list.
- `StateFlow` observation is not modelled; the state is a plain field. The 1500 ms delay of the screen is not modelled either.
- The Compose screens, the fretboard and staff drawing, the splash screen, navigation, the permission prompt and the theme are not modelled. They are rendering and platform glue.
- `questionId` is an unbounded integer. The 32-bit wrap-around after 2^31 - 1 questions is not modelled.
- The staff offsets are exact `real` values rather than 32-bit floats. Every offset is a multiple of 0.5, so nothing is lost.
- The `FRETBOARD_MAP` table belongs to a singleton that is initialised on first use. Here the trainer view model builds its own copy in its constructor with `BuildFretboardMap`, which is proved equal to `FretboardMap`. The question functions take the table as an argument.
- The G-major example (G, A, B, C, D, E, F#) is not stated as a literal. `KeyOnIndex` and `KeyOnScaleNote` give the notes of the key on every scale note, G (k = 7) included.
- FindNoteForInterval: requires a width of at least 0, and so do `NewQuestion`, `Regenerated` and the interval lemmas that use it. The Kotlin function also accepts negative widths: `findNoteForInterval("D", -1)` gives "C#", an unknown root still comes back unchanged, and a negative sum that is not a multiple of 12 (root "C", width -1) throws `IndexOutOfBoundsException`, because Kotlin's `%` truncates toward zero. The app only passes catalogue intervals, whose widths run from 1 to 7 (FretboardTrainerViewModel.kt lines 76 and 90).
- `GetStaffPosition` requires a non-empty note, and `GetPositionStartFret`, `ScalePositionStartFret` and `GenerateScaleInPosition` require a key with notes. The Kotlin code throws on those inputs (`first()` of an empty string, `notes[0]` of an empty list).
- `Key.toString` and the display names of intervals are not modelled; they only feed the UI.

=== FILE: audio_input.dfy ===
/**
 * Confirming an answer by ear. While a listening session runs, every buffer the pitch detector
 * analyses produces one event; the view model counts consecutive events naming the target note
 * and raises its "heard" flag once the count reaches the confidence threshold, then stops.
 *
 * The audio dispatcher, its pitch processor and its thread are reduced to the flag
 * `sessionActive`; whether the microphone can be opened is the parameter `microphoneAvailable`.
 * An event carries the note name the converter gave the detected pitch (see PitchToNote).
 */
module AudioInput {
  import opened Wrappers

  /** Consecutive matching events needed before the note counts as heard. */
  const ConfidenceThreshold := 5

  /** One detector result: silence (pitch -1), or a pitch with the name the converter gave it. */
  datatype PitchEvent = Silence | Pitch(note: Option<string>)

  /** The four fields the view model updates. */
  datatype Listener = Listener(
    sessionActive: bool,
    targetNote: Option<string>,
    stableNoteCounter: int,
    isCorrectNoteHeard: bool)

  /** No session, no target, count 0, nothing heard. */
  const InitialListener := Listener(false, None, 0, false)

  // ---------------------------------------------------------------------------
  // The operations on values
  // ---------------------------------------------------------------------------

  /** Whether an event names the target; a cleared target equals an unnamed pitch. */
  predicate Matches(l: Listener, e: PitchEvent)
  {
    e.Pitch? && e.note == l.targetNote
  }

  /**
   * After `listenFor`: the new target, a zero count and a cleared flag; a session runs if one
   * already did or a new one could be opened.
   */
  function ListenedFor(l: Listener, note: string, microphoneAvailable: bool): (r: Listener)
    ensures r.targetNote == Some(note) && r.stableNoteCounter == 0 && !r.isCorrectNoteHeard
    ensures r.sessionActive <==> l.sessionActive || microphoneAvailable
  {
    Listener(l.sessionActive || microphoneAvailable, Some(note), 0, false)
  }

  /** After `stopListening`: no session, no target, count 0; the flag is kept. */
  function Stopped(l: Listener): (r: Listener)
    ensures !r.sessionActive && r.targetNote.None? && r.stableNoteCounter == 0
    ensures r.isCorrectNoteHeard == l.isCorrectNoteHeard
  {
    l.(sessionActive := false, targetNote := None, stableNoteCounter := 0)
  }

  /**
   * After the handler sees one event: a match adds one to the count, anything else resets it;
   * a count reaching the threshold raises the flag and stops listening.
   */
  function Handled(l: Listener, e: PitchEvent): (r: Listener)
    ensures var fires := Matches(l, e) && l.stableNoteCounter + 1 >= ConfidenceThreshold;
      (r.isCorrectNoteHeard <==> l.isCorrectNoteHeard || fires) &&
      (fires ==> r == Stopped(r)) &&
      (!fires ==> (r.sessionActive == l.sessionActive && r.targetNote == l.targetNote &&
        r.stableNoteCounter == if Matches(l, e) then l.stableNoteCounter + 1 else 0))
  {
    match e
    case Silence => l.(stableNoteCounter := 0)
    case Pitch(currentNote) =>
      var counted := l.(stableNoteCounter := if currentNote == l.targetNote then l.stableNoteCounter + 1 else 0);
      if counted.stableNoteCounter >= ConfidenceThreshold then Stopped(counted.(isCorrectNoteHeard := true))
      else counted
  }

  /** The events a session delivers, handled in order; none are delivered once no session runs. */
  function Dispatched(l: Listener, events: seq<PitchEvent>): Listener
    decreases |events|
  {
    if events == [] || !l.sessionActive then l
    else Dispatched(Handled(l, events[0]), events[1..])
  }

  // ---------------------------------------------------------------------------
  // Properties
  // ---------------------------------------------------------------------------

  /** Handing events over in two batches is handing them over at once. */
  lemma {:induction false} DispatchedAppend(l: Listener, a: seq<PitchEvent>, b: seq<PitchEvent>)
    ensures Dispatched(l, a + b) == Dispatched(Dispatched(l, a), b)
    decreases |a|
  {
    if a == [] {
      assert a + b == b;
    } else if l.sessionActive {
      assert (a + b)[1..] == a[1..] + b;
      DispatchedAppend(Handled(l, a[0]), a[1..], b);
    }
  }

  /** The count stays below the threshold whatever a session delivers: reaching it resets it. */
  lemma {:induction false} CounterStaysBelowThreshold(l: Listener, events: seq<PitchEvent>)
    requires 0 <= l.stableNoteCounter < ConfidenceThreshold
    ensures 0 <= Dispatched(l, events).stableNoteCounter < ConfidenceThreshold
    decreases |events|
  {
    if events != [] && l.sessionActive {
      CounterStaysBelowThreshold(Handled(l, events[0]), events[1..]);
    }
  }

  /** `n` copies of the event `e`. */
  function Repeat(e: PitchEvent, n: nat): (events: seq<PitchEvent>)
    ensures |events| == n && forall i :: 0 <= i < n ==> events[i] == e
  {
    seq(n, _ => e)
  }

  /** Matches below the threshold only raise the count: nothing fires and the session goes on. */
  lemma {:induction false} MatchesBelowThreshold(l: Listener, n: nat)
    requires l.sessionActive && l.targetNote.Some? && !l.isCorrectNoteHeard
    requires 0 <= l.stableNoteCounter && l.stableNoteCounter + n < ConfidenceThreshold
    ensures Dispatched(l, Repeat(Pitch(l.targetNote), n)) == l.(stableNoteCounter := l.stableNoteCounter + n)
    decreases n
  {
    if n > 0 {
      var next := Handled(l, Pitch(l.targetNote));
      assert Repeat(Pitch(l.targetNote), n)[1..] == Repeat(Pitch(l.targetNote), n - 1);
      MatchesBelowThreshold(next, n - 1);
    }
  }

  /** After `listenFor` with a running session, five events naming the target raise the flag and stop. */
  lemma FiveMatchesFire(l: Listener, note: string, microphoneAvailable: bool)
    requires l.sessionActive || microphoneAvailable
    ensures var r := Dispatched(ListenedFor(l, note, microphoneAvailable), Repeat(Pitch(Some(note)), 5));
      r.isCorrectNoteHeard && r == Stopped(r)
  {
    var start := ListenedFor(l, note, microphoneAvailable);
    MatchesBelowThreshold(start, 4);
    assert Repeat(Pitch(Some(note)), 5) == Repeat(Pitch(Some(note)), 4) + [Pitch(Some(note))];
    DispatchedAppend(start, Repeat(Pitch(Some(note)), 4), [Pitch(Some(note))]);
  }

  /** Four events naming the target and then one that does not: nothing fires and the count is back at 0. */
  lemma FourMatchesThenMismatch(l: Listener, note: string, microphoneAvailable: bool, other: PitchEvent)
    requires l.sessionActive || microphoneAvailable
    requires other != Pitch(Some(note))
    ensures var r := Dispatched(ListenedFor(l, note, microphoneAvailable), Repeat(Pitch(Some(note)), 4) + [other]);
      !r.isCorrectNoteHeard && r.sessionActive && r.targetNote == Some(note) && r.stableNoteCounter == 0
  {
    var start := ListenedFor(l, note, microphoneAvailable);
    MatchesBelowThreshold(start, 4);
    DispatchedAppend(start, Repeat(Pitch(Some(note)), 4), [other]);
  }

  /** `length` events from `start` on all name `note`. */
  predicate MatchRun(events: seq<PitchEvent>, start: int, length: int, note: Option<string>)
  {
    0 <= start && start + length <= |events| &&
    forall j :: start <= j < start + length ==> events[j] == Pitch(note)
  }

  /**
   * The flag rises only on a run of matching events: the events still missing from the current
   * count open the sequence, or five consecutive events name the target somewhere in it.
   */
  lemma {:induction false} FiringNeedsConsecutiveMatches(l: Listener, events: seq<PitchEvent>)
    requires !l.isCorrectNoteHeard && 0 <= l.stableNoteCounter < ConfidenceThreshold
    ensures Dispatched(l, events).isCorrectNoteHeard ==>
      MatchRun(events, 0, ConfidenceThreshold - l.stableNoteCounter, l.targetNote) ||
      exists i :: MatchRun(events, i, ConfidenceThreshold, l.targetNote)
    decreases |events|
  {
    if events != [] && l.sessionActive && Dispatched(l, events).isCorrectNoteHeard {
      var next := Handled(l, events[0]);
      var rest := events[1..];
      if Matches(l, events[0]) && l.stableNoteCounter + 1 >= ConfidenceThreshold {
        assert MatchRun(events, 0, ConfidenceThreshold - l.stableNoteCounter, l.targetNote);
      } else {
        FiringNeedsConsecutiveMatches(next, rest);
        if MatchRun(rest, 0, ConfidenceThreshold - next.stableNoteCounter, l.targetNote) {
          if Matches(l, events[0]) {
            assert MatchRun(events, 0, ConfidenceThreshold - l.stableNoteCounter, l.targetNote) by {
              forall j | 0 < j < ConfidenceThreshold - l.stableNoteCounter
                ensures events[j] == Pitch(l.targetNote)
              {
                assert events[j] == rest[j - 1];
              }
            }
          } else {
            assert MatchRun(events, 1, ConfidenceThreshold, l.targetNote) by {
              forall j | 1 <= j < 1 + ConfidenceThreshold
                ensures events[j] == Pitch(l.targetNote)
              {
                assert events[j] == rest[j - 1];
              }
            }
          }
        } else {
          var i :| MatchRun(rest, i, ConfidenceThreshold, l.targetNote);
          assert MatchRun(events, i + 1, ConfidenceThreshold, l.targetNote) by {
            forall j | i + 1 <= j < i + 1 + ConfidenceThreshold
              ensures events[j] == Pitch(l.targetNote)
            {
              assert events[j] == rest[j - 1];
            }
          }
        }
      }
    }
  }

  /**
   * A running session whose opening events supply the matches still missing from the count
   * raises the flag.
   */
  lemma {:induction false} OpeningRunFires(l: Listener, events: seq<PitchEvent>)
    requires l.sessionActive && 0 <= l.stableNoteCounter < ConfidenceThreshold
    requires MatchRun(events, 0, ConfidenceThreshold - l.stableNoteCounter, l.targetNote)
    ensures Dispatched(l, events).isCorrectNoteHeard
    decreases |events|
  {
    var next := Handled(l, events[0]);
    var rest := events[1..];
    assert Matches(l, events[0]);
    if l.stableNoteCounter + 1 < ConfidenceThreshold {
      assert MatchRun(rest, 0, ConfidenceThreshold - next.stableNoteCounter, l.targetNote) by {
        forall j | 0 <= j < ConfidenceThreshold - next.stableNoteCounter
          ensures rest[j] == Pitch(l.targetNote)
        {
          assert rest[j] == events[j + 1];
        }
      }
      OpeningRunFires(next, rest);
    }
  }

  /**
   * Five consecutive events naming the target anywhere in what a running session delivers raise
   * the flag: either an earlier run fires first, or this one does.
   */
  lemma {:induction false} RunOfMatchesFires(l: Listener, events: seq<PitchEvent>, i: int)
    requires l.sessionActive && 0 <= l.stableNoteCounter < ConfidenceThreshold
    requires MatchRun(events, i, ConfidenceThreshold, l.targetNote)
    ensures Dispatched(l, events).isCorrectNoteHeard
    decreases i
  {
    if i == 0 {
      OpeningRunFires(l, events);
    } else {
      var next := Handled(l, events[0]);
      var rest := events[1..];
      if !(Matches(l, events[0]) && l.stableNoteCounter + 1 >= ConfidenceThreshold) {
        assert MatchRun(rest, i - 1, ConfidenceThreshold, l.targetNote) by {
          forall j | i - 1 <= j < i - 1 + ConfidenceThreshold
            ensures rest[j] == Pitch(l.targetNote)
          {
            assert rest[j] == events[j + 1];
          }
        }
        RunOfMatchesFires(next, rest, i - 1);
      }
    }
  }

  /**
   * Right after `listenFor`, the flag rises exactly when a session runs and five consecutive
   * events name the target.
   */
  lemma HeardExactlyAfterFiveMatches(l: Listener, note: string, microphoneAvailable: bool, events: seq<PitchEvent>)
    ensures Dispatched(ListenedFor(l, note, microphoneAvailable), events).isCorrectNoteHeard <==>
      (l.sessionActive || microphoneAvailable) && exists i :: MatchRun(events, i, ConfidenceThreshold, Some(note))
  {
    var start := ListenedFor(l, note, microphoneAvailable);
    FiringNeedsConsecutiveMatches(start, events);
    if i :| start.sessionActive && MatchRun(events, i, ConfidenceThreshold, Some(note)) {
      RunOfMatchesFires(start, events, i);
    }
  }

  /** When no microphone could be opened and no session ran, nothing is ever heard. */
  lemma NoSessionNeverFires(l: Listener, note: string, events: seq<PitchEvent>)
    requires !l.sessionActive
    ensures Dispatched(ListenedFor(l, note, false), events) == ListenedFor(l, note, false)
    ensures !Dispatched(ListenedFor(l, note, false), events).isCorrectNoteHeard
  {
  }

  /** Silence resets the count and never fires. */
  lemma SilenceResets(l: Listener)
    ensures Handled(l, Silence) == l.(stableNoteCounter := 0)
  {
  }

  /** Stopping twice is stopping once. */
  lemma StoppedIdempotent(l: Listener)
    ensures Stopped(Stopped(l)) == Stopped(l)
  {
  }

  /**
   * After stopping, the cleared target equals the name of an unnamed pitch, so such an event
   * would count as a match; no session delivers it, though.
   */
  lemma StoppedTargetMatchesUnnamedPitch(l: Listener, events: seq<PitchEvent>)
    ensures Matches(Stopped(l), Pitch(None))
    ensures Handled(Stopped(l), Pitch(None)).stableNoteCounter == 1
    ensures Dispatched(Stopped(l), events) == Stopped(l)
  {
  }

  // ---------------------------------------------------------------------------
  // The view model
  // ---------------------------------------------------------------------------

  class AudioInputViewModel {
    var isCorrectNoteHeard: bool
    var sessionActive: bool
    var targetNote: Option<string>
    var stableNoteCounter: int

    function State(): Listener
      reads this
    {
      Listener(sessionActive, targetNote, stableNoteCounter, isCorrectNoteHeard)
    }

    constructor ()
      ensures State() == InitialListener
    {
      isCorrectNoteHeard := false;
      sessionActive := false;
      targetNote := None;
      stableNoteCounter := 0;
    }

    /** Sets the target, clears the flag and the count, and makes sure a session runs. */
    method ListenFor(note: string, microphoneAvailable: bool)
      modifies this
      ensures State() == ListenedFor(old(State()), note, microphoneAvailable)
    {
      targetNote := Some(note);
      isCorrectNoteHeard := false;
      stableNoteCounter := 0;
      StartDispatcher(microphoneAvailable);
    }

    /** Opens a session unless one runs; failing to open the microphone leaves none. */
    method StartDispatcher(microphoneAvailable: bool)
      modifies this
      ensures State() == old(State()).(sessionActive := old(sessionActive) || microphoneAvailable)
    {
      if !sessionActive {
        if microphoneAvailable {
          sessionActive := true;
        }
      }
    }

    /** The pitch handler. */
    method OnPitch(e: PitchEvent)
      modifies this
      ensures State() == Handled(old(State()), e)
    {
      match e
      case Silence =>
        stableNoteCounter := 0;
      case Pitch(currentNote) =>
        if currentNote == targetNote {
          stableNoteCounter := stableNoteCounter + 1;
        } else {
          stableNoteCounter := 0;
        }
        if stableNoteCounter >= ConfidenceThreshold {
          isCorrectNoteHeard := true;
          StopListening();
        }
    }

    /** A session's run: hands each event to the handler until the session ends. */
    method RunSession(events: seq<PitchEvent>)
      modifies this
      ensures State() == Dispatched(old(State()), events)
    {
      var i := 0;
      while i < |events| && sessionActive
        invariant 0 <= i <= |events|
        invariant Dispatched(old(State()), events) == Dispatched(State(), events[i..])
      {
        assert events[i..][1..] == events[i + 1..];
        OnPitch(events[i]);
        i := i + 1;
      }
    }

    method StopListening()
      modifies this
      ensures State() == Stopped(old(State()))
    {
      sessionActive := false;
      targetNote := None;
      stableNoteCounter := 0;
    }

    /** The screen is gone: listening stops. */
    method OnCleared()
      modifies this
      ensures State() == Stopped(old(State()))
    {
      StopListening();
    }
  }
}

=== FILE: fretboard.dfy ===
/**
 * The map from each note name to every place it sounds on the neck, as the music-theory
 * object builds it once when it is first used, and the scale boxes read from it.
 */
module Fretboard {
  import opened MusicTheory

  /** Frets 0 to 15 are mapped on every string. */
  const FretCount := 16

  /** Index in the chromatic scale of each open string's note, string 1 first. */
  const OpenNoteIndices: seq<int> := [4, 11, 7, 2, 9, 4]

  /** The table agrees with looking each open-string note up in the chromatic scale. */
  lemma OpenNoteIndicesMatchTuning()
    ensures forall i :: 0 <= i < |StandardTuning| ==> NoteIndex(StandardTuning[i]) == OpenNoteIndices[i]
  {
    forall i | 0 <= i < |StandardTuning|
      ensures NoteIndex(StandardTuning[i]) == OpenNoteIndices[i]
    {
      assert StandardTuning[i] == ChromaticScale[OpenNoteIndices[i]];
      NoteIndexOfScale(OpenNoteIndices[i]);
    }
  }

  // ---------------------------------------------------------------------------
  // The fretboard map
  // ---------------------------------------------------------------------------

  predicate OnBoard(p: FretboardPosition)
  {
    1 <= p.stringNumber <= |StandardTuning| && 0 <= p.fret < FretCount
  }

  /** The note a string sounds at a fret: its open note moved up by the fret number. */
  function NoteAt(p: FretboardPosition): (note: string)
    requires OnBoard(p)
  {
    ChromaticScale[(OpenNoteIndices[p.stringNumber - 1] + p.fret) % |ChromaticScale|]
  }

  /** The note of a cell is its string's open note moved up by the fret. */
  lemma CellNote(stringIndex: int, fret: int, openNoteIndex: int)
    requires 0 <= stringIndex < |StandardTuning| && 0 <= fret < FretCount
    requires openNoteIndex == OpenNoteIndices[stringIndex]
    ensures NoteAt(FretboardPosition(stringIndex + 1, fret)) == ChromaticScale[(openNoteIndex + fret) % |ChromaticScale|]
  {
  }

  /** The 96 positions of the board in the order the map is built: string by string, fret by fret. */
  function BoardCells(): (cells: seq<FretboardPosition>)
    ensures |cells| == |StandardTuning| * FretCount
    ensures forall k :: 0 <= k < |cells| ==> cells[k] == FretboardPosition(k / FretCount + 1, k % FretCount)
    ensures forall c :: c in cells ==> OnBoard(c)
  {
    seq(|StandardTuning| * FretCount, k => FretboardPosition(k / FretCount + 1, k % FretCount))
  }

  /** The cell of string `stringIndex + 1` at `fret` sits at index stringIndex * 16 + fret. */
  lemma BoardCellAt(stringIndex: int, fret: int)
    requires 0 <= stringIndex < |StandardTuning| && 0 <= fret < FretCount
    ensures 0 <= stringIndex * FretCount + fret < |BoardCells()|
    ensures BoardCells()[stringIndex * FretCount + fret] == FretboardPosition(stringIndex + 1, fret)
  {
    var k := stringIndex * 16 + fret;
    assert k / 16 == stringIndex && k % 16 == fret;
  }

  /** Every position of the board is a cell, at index (string - 1) * 16 + fret. */
  lemma BoardCellsComplete(p: FretboardPosition)
    requires OnBoard(p)
    ensures p in BoardCells()
  {
    BoardCellAt(p.stringNumber - 1, p.fret);
  }

  lemma PrefixExtend(s: seq<FretboardPosition>, k: int)
    requires 0 <= k < |s|
    ensures s[..k + 1] == s[..k] + [s[k]]
  {
  }

  /** The cells among `cells` that sound `note`, in their order. */
  function PositionsOf(note: string, cells: seq<FretboardPosition>): (ps: seq<FretboardPosition>)
    requires forall c :: c in cells ==> OnBoard(c)
    ensures |ps| <= |cells|
    ensures forall p :: p in ps <==> p in cells && NoteAt(p) == note
  {
    if cells == [] then []
    else (if NoteAt(cells[0]) == note then [cells[0]] else []) + PositionsOf(note, cells[1..])
  }

  lemma {:induction false} PositionsOfAppend(note: string, cells: seq<FretboardPosition>, c: FretboardPosition)
    requires forall x :: x in cells ==> OnBoard(x)
    requires OnBoard(c)
    ensures PositionsOf(note, cells + [c]) == PositionsOf(note, cells) + (if NoteAt(c) == note then [c] else [])
  {
    if cells == [] {
      assert cells + [c] == [c];
      assert [c][1..] == [];
    } else {
      assert (cells + [c])[0] == cells[0];
      assert (cells + [c])[1..] == cells[1..] + [c];
      PositionsOfAppend(note, cells[1..], c);
    }
  }

  /** `m` lists, for every note that `cells` sound, exactly the cells that sound it, in their order. */
  ghost predicate Indexes(m: map<string, seq<FretboardPosition>>, cells: seq<FretboardPosition>)
    requires forall c :: c in cells ==> OnBoard(c)
  {
    && (forall n :: n in m <==> PositionsOf(n, cells) != [])
    && (forall n :: n in m ==> m[n] == PositionsOf(n, cells))
  }

  /** Appending one more cell to the list of its note keeps the index exact. */
  lemma AppendCellKeepsIndex(m: map<string, seq<FretboardPosition>>, cells: seq<FretboardPosition>, c: FretboardPosition)
    requires forall x :: x in cells ==> OnBoard(x)
    requires OnBoard(c)
    requires Indexes(m, cells)
    ensures Indexes(m[NoteAt(c) := (if NoteAt(c) in m then m[NoteAt(c)] else []) + [c]], cells + [c])
  {
    var note := NoteAt(c);
    var m' := m[note := (if note in m then m[note] else []) + [c]];
    forall n
      ensures n in m' <==> PositionsOf(n, cells + [c]) != []
      ensures n in m' ==> m'[n] == PositionsOf(n, cells + [c])
    {
      PositionsOfAppend(n, cells, c);
      if n != note {
        assert n in m' <==> n in m;
      }
    }
  }

  /** The map from a note name to the positions that sound it; a note is a key when it sounds somewhere. */
  function FretboardMap(): map<string, seq<FretboardPosition>>
  {
    map note | note in ChromaticScale && PositionsOf(note, BoardCells()) != [] :: PositionsOf(note, BoardCells())
  }

  /** Looks the open note of a string up in the chromatic scale. */
  method LookUpOpenNote(stringIndex: int) returns (openNoteIndex: int)
    requires 0 <= stringIndex < |StandardTuning|
    ensures openNoteIndex == OpenNoteIndices[stringIndex]
    ensures ChromaticScale[openNoteIndex] == StandardTuning[stringIndex]
  {
    var openStringNote := StandardTuning[stringIndex];
    openNoteIndex := IndexOf(ChromaticScale, openStringNote);
    OpenNoteIndicesMatchTuning();
  }

  /**
   * The map as the app builds it at start-up: for each string and each fret, the position is
   * appended to the list of the note it sounds, creating the list on first use.
   */
  method BuildFretboardMap() returns (m: map<string, seq<FretboardPosition>>)
    ensures m == FretboardMap()
  {
    m := map[];
    ghost var k := 0;  // cells visited so far
    for stringIndex := 0 to |StandardTuning|
      invariant k == stringIndex * FretCount
      invariant Indexes(m, BoardCells()[..k])
    {
      var openNoteIndex := LookUpOpenNote(stringIndex);
      for fret := 0 to FretCount
        invariant k == stringIndex * FretCount + fret
        invariant Indexes(m, BoardCells()[..k])
      {
        var noteIndex := (openNoteIndex + fret) % |ChromaticScale|;
        var noteName := ChromaticScale[noteIndex];
        var position := FretboardPosition(stringIndex + 1, fret);
        BoardCellAt(stringIndex, fret);
        ghost var done := BoardCells()[..k];
        PrefixExtend(BoardCells(), k);
        CellNote(stringIndex, fret, openNoteIndex);
        AppendCellKeepsIndex(m, done, position);
        if noteName !in m {
          m := m[noteName := []];
        }
        m := m[noteName := m[noteName] + [position]];
        k := k + 1;
      }
    }
    assert BoardCells()[..k] == BoardCells();
    IndexOfBoardIsFretboardMap(m);
  }

  /** A map that indexes the whole board is the fretboard map. */
  lemma IndexOfBoardIsFretboardMap(m: map<string, seq<FretboardPosition>>)
    requires Indexes(m, BoardCells())
    ensures m == FretboardMap()
  {
    forall n | PositionsOf(n, BoardCells()) != []
      ensures n in ChromaticScale
    {
      var p := PositionsOf(n, BoardCells())[0];
      assert p in PositionsOf(n, BoardCells());
      NoteAtScaleIndex(p);
    }
  }

  /** Each position sounds a note of the scale. */
  lemma NoteAtScaleIndex(p: FretboardPosition)
    requires OnBoard(p)
    ensures NoteAt(p) in ChromaticScale
  {
  }

  /** Note k of the scale sounds somewhere on the board: on the high E string, for one. */
  lemma ScaleNoteSounds(k: int)
    requires 0 <= k < |ChromaticScale|
    ensures PositionsOf(ChromaticScale[k], BoardCells()) != []
  {
    var p := FretboardPosition(1, (k + 8) % 12);
    EStringSounds(1, k);
    BoardCellsComplete(p);
    assert p in PositionsOf(ChromaticScale[k], BoardCells());
  }

  /**
   * Every position of the board (strings 1 to 6, frets 0 to 15) is listed under the note it
   * sounds, and a listed position is on the board and sounds the note it is listed under; so
   * each position is in exactly one list.
   */
  lemma FretboardMapListsEachPositionOnce()
    ensures forall p :: OnBoard(p) ==> NoteAt(p) in FretboardMap() && p in FretboardMap()[NoteAt(p)]
    ensures forall n, p :: n in FretboardMap() && p in FretboardMap()[n] ==> OnBoard(p) && NoteAt(p) == n
  {
    forall p | OnBoard(p)
      ensures NoteAt(p) in FretboardMap() && p in FretboardMap()[NoteAt(p)]
    {
      BoardCellsComplete(p);
      NoteAtScaleIndex(p);
      assert p in PositionsOf(NoteAt(p), BoardCells());
    }
  }

  /** The keys of the map are exactly the twelve notes of the chromatic scale, each with a non-empty list. */
  lemma FretboardMapKeys()
    ensures forall n :: n in FretboardMap() <==> IsNoteName(n)
    ensures forall n :: n in FretboardMap() ==> FretboardMap()[n] != []
  {
    forall n
      ensures n in FretboardMap() <==> IsNoteName(n)
    {
      IsNoteNameIsMembership(n);
      if IsNoteName(n) {
        var k :| 0 <= k < |ChromaticScale| && ChromaticScale[k] == n;
        ScaleNoteSounds(k);
      }
    }
  }

  /** Both E strings (open note index 4) sound note k of the scale at fret (k + 8) mod 12. */
  lemma EStringSounds(stringNumber: int, k: int)
    requires stringNumber == 1 || stringNumber == 6
    requires 0 <= k < |ChromaticScale|
    ensures OnBoard(FretboardPosition(stringNumber, (k + 8) % 12))
    ensures NoteAt(FretboardPosition(stringNumber, (k + 8) % 12)) == ChromaticScale[k]
  {
    assert (4 + (k + 8) % 12) % 12 == k;
  }

  /**
   * Every note of the scale sounds somewhere in every four-fret window starting at frets 0 to
   * 11: the open strings sit at most three semitones apart around the octave.
   */
  lemma NoteInEveryFourFretWindow(k: int, startFret: int)
    requires 0 <= k < |ChromaticScale| && 0 <= startFret < 12
    ensures ChromaticScale[k] in FretboardMap()
    ensures exists p :: p in FretboardMap()[ChromaticScale[k]] && startFret <= p.fret < startFret + 4
  {
    var p := CellInWindow(k, startFret);
    PositionIsListed(p);
  }

  lemma CellInWindow(k: int, startFret: int) returns (p: FretboardPosition)
    requires 0 <= k < |ChromaticScale| && 0 <= startFret < 12
    ensures OnBoard(p) && NoteAt(p) == ChromaticScale[k] && startFret <= p.fret < startFret + 4
  {
    var stringIndex, d := StringReachingNote(k, startFret);
    p := FretboardPosition(stringIndex + 1, startFret + d);
    CellNote(stringIndex, startFret + d, OpenNoteIndices[stringIndex]);
  }

  /** A string whose open note lies at most three semitones below note k, counted from `startFret`. */
  lemma StringReachingNote(k: int, startFret: int) returns (stringIndex: int, d: int)
    requires 0 <= k < 12 && 0 <= startFret < 12
    ensures 0 <= stringIndex < |StandardTuning| && 0 <= d <= 3
    ensures (OpenNoteIndices[stringIndex] + startFret + d) % 12 == k
  {
    // r: semitones from the window's first fret up to the note, within one octave
    var r := if k >= startFret then k - startFret else k - startFret + 12;
    stringIndex := if r < 2 then 1 else if r < 4 then 3 else if r < 7 then 0 else if r < 9 then 2 else if r < 11 then 4 else 1;
    var openNoteIndex := OpenNoteIndices[stringIndex];
    d := if r < openNoteIndex then r - openNoteIndex + 12 else r - openNoteIndex;
    WholeOctaves(k, (openNoteIndex + startFret + d - k) / 12);
  }

  lemma WholeOctaves(k: int, n: nat)
    requires 0 <= k < 12
    ensures (k + 12 * n) % 12 == k
  {
  }

  /** `p` comes before `q` in the order the map is built: lower string first, then lower fret. */
  predicate Before(p: FretboardPosition, q: FretboardPosition)
  {
    p.stringNumber < q.stringNumber || (p.stringNumber == q.stringNumber && p.fret < q.fret)
  }

  predicate InBoardOrder(ps: seq<FretboardPosition>)
  {
    forall i, j :: 0 <= i < j < |ps| ==> Before(ps[i], ps[j])
  }

  lemma BoardCellsInOrder()
    ensures InBoardOrder(BoardCells())
  {
    var cells := BoardCells();
    forall i, j | 0 <= i < j < |cells|
      ensures Before(cells[i], cells[j])
    {
      assert i / 16 <= j / 16;
      assert i / 16 == j / 16 ==> i % 16 < j % 16;
    }
  }

  lemma {:induction false} PositionsOfInOrder(note: string, cells: seq<FretboardPosition>)
    requires forall c :: c in cells ==> OnBoard(c)
    requires InBoardOrder(cells)
    ensures InBoardOrder(PositionsOf(note, cells))
  {
    if cells != [] {
      var rest := PositionsOf(note, cells[1..]);
      PositionsOfInOrder(note, cells[1..]);
      forall q | q in rest
        ensures Before(cells[0], q)
      {
        var k :| 0 <= k < |cells[1..]| && cells[1..][k] == q;
        assert cells[k + 1] == q;
      }
      var ps := PositionsOf(note, cells);
      if NoteAt(cells[0]) == note {
        assert ps == [cells[0]] + rest;
        forall i, j | 0 <= i < j < |ps|
          ensures Before(ps[i], ps[j])
        {
          if i == 0 {
            assert ps[j] == rest[j - 1];
            assert ps[j] in rest;
          } else {
            assert ps[i] == rest[i - 1] && ps[j] == rest[j - 1];
          }
        }
      } else {
        assert ps == rest;
      }
    }
  }

  /** Each note's list is in construction order: string ascending, then fret ascending. */
  lemma FretboardMapInBoardOrder()
    ensures forall n :: n in FretboardMap() ==> InBoardOrder(FretboardMap()[n])
  {
    forall n | n in FretboardMap()
      ensures InBoardOrder(FretboardMap()[n])
    {
      BoardCellsInOrder();
      PositionsOfInOrder(n, BoardCells());
    }
  }

  /** The number of positions listed under the given notes. */
  function CountEntries(m: map<string, seq<FretboardPosition>>, notes: seq<string>): nat
  {
    if notes == [] then 0
    else (if notes[0] in m then |m[notes[0]]| else 0) + CountEntries(m, notes[1..])
  }

  /** How many times `x` occurs in `s`. */
  function Occurrences(s: seq<string>, x: string): nat
  {
    if s == [] then 0 else (if s[0] == x then 1 else 0) + Occurrences(s[1..], x)
  }

  lemma {:induction false} OccurrencesInDistinct(s: seq<string>, x: string)
    requires Distinct(s)
    ensures Occurrences(s, x) == if x in s then 1 else 0
  {
    if s != [] {
      assert Distinct(s[1..]) by {
        forall i, j | 0 <= i < j < |s[1..]|
          ensures s[1..][i] != s[1..][j]
        {
          assert s[1..][i] == s[i + 1] && s[1..][j] == s[j + 1];
        }
      }
      OccurrencesInDistinct(s[1..], x);
      if s[0] == x {
        assert x !in s[1..] by {
          forall j | 0 <= j < |s[1..]|
            ensures s[1..][j] != x
          {
            assert s[1..][j] == s[j + 1];
          }
        }
      } else {
        assert x in s <==> x in s[1..];
      }
    }
  }

  /** The number of positions among `cells` that sound one of `notes`, note by note. */
  function TotalPositions(notes: seq<string>, cells: seq<FretboardPosition>): nat
    requires forall c :: c in cells ==> OnBoard(c)
  {
    if notes == [] then 0
    else |PositionsOf(notes[0], cells)| + TotalPositions(notes[1..], cells)
  }

  lemma {:induction false} TotalPositionsAppend(notes: seq<string>, cells: seq<FretboardPosition>, c: FretboardPosition)
    requires forall x :: x in cells ==> OnBoard(x)
    requires OnBoard(c)
    ensures TotalPositions(notes, cells + [c]) == TotalPositions(notes, cells) + Occurrences(notes, NoteAt(c))
  {
    if notes != [] {
      PositionsOfAppend(notes[0], cells, c);
      TotalPositionsAppend(notes[1..], cells, c);
    }
  }

  lemma {:induction false} TotalPositionsOfPrefix(k: nat)
    requires k <= |BoardCells()|
    ensures TotalPositions(ChromaticScale, BoardCells()[..k]) == k
  {
    if k == 0 {
      assert forall n :: PositionsOf(n, BoardCells()[..0]) == [];
      TotalPositionsOfEmpty(ChromaticScale, BoardCells()[..0]);
    } else {
      TotalPositionsOfPrefix(k - 1);
      PrefixExtend(BoardCells(), k - 1);
      var c := BoardCells()[k - 1];
      TotalPositionsAppend(ChromaticScale, BoardCells()[..k - 1], c);
      ChromaticScaleDistinct();
      NoteAtScaleIndex(c);
      OccurrencesInDistinct(ChromaticScale, NoteAt(c));
    }
  }

  lemma {:induction false} TotalPositionsOfEmpty(notes: seq<string>, cells: seq<FretboardPosition>)
    requires cells == []
    ensures TotalPositions(notes, cells) == 0
  {
    if notes != [] {
      TotalPositionsOfEmpty(notes[1..], cells);
    }
  }

  lemma {:induction false} CountEntriesOfMap(notes: seq<string>)
    requires forall n :: n in notes ==> IsNoteName(n)
    ensures CountEntries(FretboardMap(), notes) == TotalPositions(notes, BoardCells())
  {
    if notes != [] {
      FretboardMapKeys();
      CountEntriesOfMap(notes[1..]);
    }
  }

  /** The lists of the map hold 96 positions in all: 6 strings times 16 frets. */
  lemma FretboardMapHas96Positions()
    ensures CountEntries(FretboardMap(), ChromaticScale) == 96
  {
    assert forall n :: n in ChromaticScale ==> IsNoteName(n);
    CountEntriesOfMap(ChromaticScale);
    TotalPositionsOfBoard();
  }

  lemma TotalPositionsOfBoard()
    ensures TotalPositions(ChromaticScale, BoardCells()) == |BoardCells()|
  {
    TotalPositionsOfPrefix(|BoardCells()|);
    assert BoardCells()[..|BoardCells()|] == BoardCells();
  }

  // ---------------------------------------------------------------------------
  // Scale positions
  // ---------------------------------------------------------------------------

  /** Index of the first position of `ps` on string `stringNumber`, or -1 when there is none. */
  function FirstOnString(ps: seq<FretboardPosition>, stringNumber: int): (i: int)
    ensures -1 <= i < |ps|
    ensures i == -1 ==> forall j :: 0 <= j < |ps| ==> ps[j].stringNumber != stringNumber
    ensures 0 <= i ==> ps[i].stringNumber == stringNumber && forall j :: 0 <= j < i ==> ps[j].stringNumber != stringNumber
  {
    if ps == [] then -1
    else if ps[0].stringNumber == stringNumber then 0
    else var i := FirstOnString(ps[1..], stringNumber); if i == -1 then -1 else i + 1
  }

  /**
   * The fret of the first position of `rootNote` on the low E string (string 6) in its map list,
   * or 0 when the note has no list or no such position.
   */
  function AnchorFret(rootNote: string): (fret: int)
    ensures 0 <= fret < FretCount
  {
    FretboardMapListsEachPositionOnce();
    if rootNote in FretboardMap() then AnchorIn(FretboardMap()[rootNote]) else 0
  }

  function AnchorIn(ps: seq<FretboardPosition>): (fret: int)
    requires forall p :: p in ps ==> OnBoard(p)
    ensures 0 <= fret < FretCount
  {
    var i := FirstOnString(ps, 6);
    if i == -1 then 0 else assert ps[i] in ps; assert OnBoard(ps[i]); ps[i].fret
  }

  /** A name outside the chromatic scale has no map list, so its anchor is fret 0. */
  lemma AnchorOfUnknownNote(rootNote: string)
    requires !IsNoteName(rootNote)
    ensures AnchorFret(rootNote) == 0
  {
    FretboardMapKeys();
  }

  /** The anchor of note k of the scale is the lowest fret sounding it on the low E string. */
  lemma AnchorOfScaleNote(k: int)
    requires 0 <= k < |ChromaticScale|
    ensures AnchorFret(ChromaticScale[k]) == (k + 8) % 12
  {
    var note := ChromaticScale[k];
    var q := FretboardPosition(6, (k + 8) % 12);
    EStringSounds(6, k);
    PositionIsListed(q);
    var ps := FretboardMap()[note];
    ListInBoardOrder(note);
    FirstOnStringIsLowest(ps, q);
    var p := ps[FirstOnString(ps, 6)];
    ListedPositionSoundsNote(note, p);
    if p.fret < q.fret {
      LowStringFret(k, p);
    }
  }

  /** A position of the board is listed under the note it sounds. */
  lemma PositionIsListed(p: FretboardPosition)
    requires OnBoard(p)
    ensures NoteAt(p) in FretboardMap() && p in FretboardMap()[NoteAt(p)]
  {
    FretboardMapListsEachPositionOnce();
  }

  /** A listed position is on the board and sounds the note it is listed under. */
  lemma ListedPositionSoundsNote(n: string, p: FretboardPosition)
    requires n in FretboardMap() && p in FretboardMap()[n]
    ensures OnBoard(p) && NoteAt(p) == n
  {
    FretboardMapListsEachPositionOnce();
  }

  lemma ListInBoardOrder(n: string)
    requires n in FretboardMap()
    ensures InBoardOrder(FretboardMap()[n])
  {
    FretboardMapInBoardOrder();
  }

  /** In board order, the first position on a string has the lowest fret on that string. */
  lemma FirstOnStringIsLowest(ps: seq<FretboardPosition>, q: FretboardPosition)
    requires InBoardOrder(ps) && q in ps
    ensures 0 <= FirstOnString(ps, q.stringNumber)
    ensures ps[FirstOnString(ps, q.stringNumber)].stringNumber == q.stringNumber
    ensures ps[FirstOnString(ps, q.stringNumber)].fret <= q.fret
  {
    var jq :| 0 <= jq < |ps| && ps[jq] == q;
    var i := FirstOnString(ps, q.stringNumber);
    if i < jq {
      assert Before(ps[i], ps[jq]);
    }
  }

  /** Below fret 12, the low E string sounds note k of the scale only at fret (k + 8) mod 12. */
  lemma LowStringFret(k: int, p: FretboardPosition)
    requires 0 <= k < |ChromaticScale| && OnBoard(p) && p.stringNumber == 6 && p.fret < 12
    requires NoteAt(p) == ChromaticScale[k]
    ensures p.fret == (k + 8) % 12
  {
    var m := (4 + p.fret) % 12;
    assert NoteAt(p) == ChromaticScale[m];
    if m != k {
      ScaleNamesDiffer(m, k);
    }
  }

  /** Fret offsets of the five positions from the anchor. */
  const PositionOffsets: seq<int> := [-2, 0, 2, 5, 7]

  /** The value at `index`, or `default` when the index is out of range. */
  function GetOrElse(s: seq<int>, index: int, default: int): int
  {
    if 0 <= index < |s| then s[index] else default
  }

  /**
   * The start fret of a position, anchored on the key's first note: anchor - 2, anchor,
   * anchor + 2, anchor + 5 or anchor + 7, where anything below 1 becomes the open position 0,
   * and 0 for a position index outside 0..4.
   */
  function GetPositionStartFret(key: Key, positionIndex: int): (startFret: int)
    requires |key.notes| > 0
    ensures startFret >= 0
    ensures !(0 <= positionIndex < |PositionOffsets|) ==> startFret == 0
  {
    var anchorFret := AnchorFret(key.notes[0]);
    var positionStartFrets := seq(|PositionOffsets|, i requires 0 <= i < |PositionOffsets| =>
      var f := anchorFret + PositionOffsets[i]; if f < 1 then 0 else f);
    GetOrElse(positionStartFrets, positionIndex, 0)
  }

  /**
   * The start fret `GenerateScaleInPosition` uses: the same five offsets from the anchor, but a
   * negative value is wrapped up by an octave instead of being moved to the open position.
   */
  function ScalePositionStartFret(key: Key, positionIndex: int): (startFret: int)
    requires |key.notes| > 0
    ensures startFret >= 0
    ensures !(0 <= positionIndex < |PositionOffsets|) ==> startFret == 0
  {
    var anchorFret := AnchorFret(key.notes[0]);
    var positionStartFrets := seq(|PositionOffsets|, i requires 0 <= i < |PositionOffsets| =>
      var f := anchorFret + PositionOffsets[i]; if f < 0 then f + 12 else f);
    GetOrElse(positionStartFrets, positionIndex, 0)
  }

  /**
   * For the key on note k of the scale, position i starts at offset i from fret (k + 8) mod 12,
   * clamped at the nut by `GetPositionStartFret` and wrapped by an octave by
   * `ScalePositionStartFret`.
   */
  lemma StartFretsOfScaleKey(k: int, scaleType: string, positionIndex: int)
    requires 0 <= k < |ChromaticScale| && 0 <= positionIndex < |PositionOffsets|
    ensures var key := GenerateKey(ChromaticScale[k], scaleType);
      var f := (k + 8) % 12 + PositionOffsets[positionIndex];
      |key.notes| > 0 &&
      GetPositionStartFret(key, positionIndex) == (if f < 1 then 0 else f) &&
      ScalePositionStartFret(key, positionIndex) == (if f < 0 then f + 12 else f)
  {
    KeyStartsOnRoot(k, scaleType);
    AnchorOfScaleNote(k);
  }

  /** The two start frets agree except where anchor plus offset falls below the nut. */
  lemma StartFretsAgreeAboveNut(key: Key, positionIndex: int)
    requires |key.notes| > 0
    ensures GetPositionStartFret(key, positionIndex) == ScalePositionStartFret(key, positionIndex) <==>
      !(0 <= positionIndex < |PositionOffsets|) || AnchorFret(key.notes[0]) + PositionOffsets[positionIndex] >= 0
  {
  }

  /** All positions listed for the notes, note by note, in map order. */
  function KeyPositions(notes: seq<string>): (ps: seq<FretboardPosition>)
    ensures forall p :: p in ps <==> OnBoard(p) && NoteAt(p) in notes
  {
    FretboardMapListsEachPositionOnce();
    if notes == [] then []
    else (if notes[0] in FretboardMap() then FretboardMap()[notes[0]] else []) + KeyPositions(notes[1..])
  }

  /**
   * The box a scale position shows: an open string only near the nut (start fret at most 2),
   * any other fret from the start fret to four frets above it.
   */
  predicate InScaleBox(p: FretboardPosition, startFret: int)
  {
    if p.fret == 0 then startFret <= 2 else startFret <= p.fret <= startFret + 4
  }

  /** The positions of `ps` inside the box, in their order. */
  function FilterInBox(ps: seq<FretboardPosition>, startFret: int): (r: seq<FretboardPosition>)
    ensures |r| <= |ps|
    ensures forall p :: p in r <==> p in ps && InScaleBox(p, startFret)
  {
    if ps == [] then []
    else (if InScaleBox(ps[0], startFret) then [ps[0]] else []) + FilterInBox(ps[1..], startFret)
  }

  /** The positions of the key's notes inside the box of the given position. */
  function GenerateScaleInPosition(key: Key, positionIndex: int): (ps: seq<FretboardPosition>)
    requires |key.notes| > 0
    ensures forall p :: p in ps <==>
      OnBoard(p) && NoteAt(p) in key.notes && InScaleBox(p, ScalePositionStartFret(key, positionIndex))
  {
    var startFret := ScalePositionStartFret(key, positionIndex);
    FilterInBox(KeyPositions(key.notes), startFret)
  }
}

=== FILE: fretboard_trainer.dfy ===
/**
 * The quiz screen's view model: one state record, replaced as a whole by each operation. A
 * question asks for the note an interval above a root, shown at a root position inside the
 * selected four-fret window and a target position nearest to it.
 *
 * The interval a question asks for is drawn at random in the app; here it is the parameter
 * `intervalIndex`, an index into the interval catalogue.
 */
module FretboardTrainer {
  import opened Wrappers
  import opened MusicTheory
  import opened Fretboard

  datatype IntervalDisplayMode = Symbol | Roman

  datatype IntervalQuestion = IntervalQuestion(
    rootNote: string,
    targetNote: string,
    interval: Interval,
    rootPosition: FretboardPosition,
    targetPosition: FretboardPosition)

  datatype UiState = UiState(
    questionId: int,
    currentRootNote: string,
    currentPositionIndex: int,
    intervalDisplayMode: IntervalDisplayMode,
    currentQuestion: Option<IntervalQuestion>,
    feedbackMessage: Option<string>,
    isQuestionActive: bool)

  /** Question 0, root C, window starting at fret 0, symbols, no question, no feedback, active. */
  const InitialUiState := UiState(0, "C", 0, Symbol, None, None, true)

  /** The roots the screen offers, and how many window positions (start frets 0 to 11). */
  const SelectableRootNotes: seq<string> := ["C", "G", "D", "A", "E", "B", "F"]
  const PositionCount := 12

  const CorrectFeedback := "Correct!"

  // ---------------------------------------------------------------------------
  // Choosing the positions of a question
  // ---------------------------------------------------------------------------

  /** The window of a question: four frets from the start fret. */
  predicate InWindow(p: FretboardPosition, startFret: int)
  {
    startFret <= p.fret < startFret + 4
  }

  /** The positions of `ps` inside the window, in their order. */
  function FilterWindow(ps: seq<FretboardPosition>, startFret: int): (r: seq<FretboardPosition>)
    ensures |r| <= |ps|
    ensures forall p :: p in r <==> p in ps && InWindow(p, startFret)
  {
    if ps == [] then []
    else (if InWindow(ps[0], startFret) then [ps[0]] else []) + FilterWindow(ps[1..], startFret)
  }

  lemma {:induction false} FilterWindowInOrder(ps: seq<FretboardPosition>, startFret: int)
    requires InBoardOrder(ps)
    ensures InBoardOrder(FilterWindow(ps, startFret))
  {
    if ps != [] {
      var rest := FilterWindow(ps[1..], startFret);
      FilterWindowInOrder(ps[1..], startFret);
      var r := FilterWindow(ps, startFret);
      if InWindow(ps[0], startFret) {
        assert r == [ps[0]] + rest;
        forall i, j | 0 <= i < j < |r|
          ensures Before(r[i], r[j])
        {
          if i == 0 {
            assert r[j] == rest[j - 1] && r[j] in ps[1..];
            var k :| 0 <= k < |ps[1..]| && ps[1..][k] == r[j];
            assert ps[k + 1] == r[j];
          } else {
            assert r[i] == rest[i - 1] && r[j] == rest[j - 1];
          }
        }
      } else {
        assert r == rest;
      }
    }
  }

  /** In a list in board order, its first element comes before every other one. */
  lemma HeadComesFirst(ps: seq<FretboardPosition>, p: FretboardPosition)
    requires InBoardOrder(ps) && p in ps
    ensures p == ps[0] || Before(ps[0], p)
  {
    var j :| 0 <= j < |ps| && ps[j] == p;
    if j > 0 {
      assert Before(ps[0], ps[j]);
    }
  }

  function Abs(x: int): nat
  {
    if x < 0 then -x else x
  }

  /** Strings apart plus frets apart. */
  function Distance(p: FretboardPosition, q: FretboardPosition): nat
  {
    Abs(p.stringNumber - q.stringNumber) + Abs(p.fret - q.fret)
  }

  /**
   * Index of the element of `ps` nearest to `from`, the first one among equally near elements;
   * -1 for an empty list.
   */
  function NearestIndex(ps: seq<FretboardPosition>, from: FretboardPosition): (i: int)
    ensures i == -1 <==> ps == []
    ensures i != -1 ==> 0 <= i < |ps|
    ensures i != -1 ==> forall j :: 0 <= j < |ps| ==> Distance(ps[i], from) <= Distance(ps[j], from)
    ensures i != -1 ==> forall j :: 0 <= j < i ==> Distance(ps[i], from) < Distance(ps[j], from)
  {
    if ps == [] then -1 else NearestAfter(ps, from, 1, 0)
  }

  /** The scan of `NearestIndex`: `best` is nearest among the first `next` elements, and the first such. */
  function NearestAfter(ps: seq<FretboardPosition>, from: FretboardPosition, next: nat, best: nat): (i: nat)
    requires best < next <= |ps|
    requires forall j :: 0 <= j < next ==> Distance(ps[best], from) <= Distance(ps[j], from)
    requires forall j :: 0 <= j < best ==> Distance(ps[best], from) < Distance(ps[j], from)
    decreases |ps| - next
    ensures i < |ps|
    ensures forall j :: 0 <= j < |ps| ==> Distance(ps[i], from) <= Distance(ps[j], from)
    ensures forall j :: 0 <= j < i ==> Distance(ps[i], from) < Distance(ps[j], from)
  {
    if next == |ps| then best
    else if Distance(ps[next], from) < Distance(ps[best], from) then NearestAfter(ps, from, next + 1, next)
    else NearestAfter(ps, from, next + 1, best)
  }

  /**
   * The first position listed for `rootNote` whose fret lies in the window from `startFret`;
   * none when the note has no list or none of its positions is in the window.
   */
  function RootPositionInWindow(fretboardMap: map<string, seq<FretboardPosition>>, rootNote: string, startFret: int): (p: Option<FretboardPosition>)
    ensures p.Some? <==> rootNote in fretboardMap && exists r :: r in fretboardMap[rootNote] && InWindow(r, startFret)
    ensures p.Some? ==> p.value in fretboardMap[rootNote] && InWindow(p.value, startFret)
  {
    if rootNote !in fretboardMap then None
    else
      var rootPositionsInWindow := FilterWindow(fretboardMap[rootNote], startFret);
      if rootPositionsInWindow == [] then
        assert forall r :: r in fretboardMap[rootNote] && InWindow(r, startFret) ==> r in rootPositionsInWindow;
        None
      else
        assert rootPositionsInWindow[0] in rootPositionsInWindow;
        Some(rootPositionsInWindow[0])
  }

  /**
   * The position listed for `note` nearest to `from`, the first of equally near ones; none when
   * the note has no list.
   */
  function NearestListedPosition(fretboardMap: map<string, seq<FretboardPosition>>, note: string, from: FretboardPosition): (p: Option<FretboardPosition>)
    ensures p.Some? <==> note in fretboardMap && fretboardMap[note] != []
    ensures p.Some? ==> p.value in fretboardMap[note]
    ensures p.Some? ==> forall t :: t in fretboardMap[note] ==> Distance(p.value, from) <= Distance(t, from)
  {
    if note !in fretboardMap then None
    else
      var targetPositions := fretboardMap[note];
      var i := NearestIndex(targetPositions, from);
      if i == -1 then None else Some(targetPositions[i])
  }

  /**
   * The question the state's root and window give for the interval, or none when the root has
   * no position in the window or the target note has no list.
   */
  function NewQuestion(fretboardMap: map<string, seq<FretboardPosition>>, s: UiState, interval: Interval): (q: Option<IntervalQuestion>)
    requires interval.semitones >= 0
    ensures var rootNote, targetNote := s.currentRootNote, FindNoteForInterval(s.currentRootNote, interval);
      q.Some? <==>
        rootNote in fretboardMap && (exists r :: r in fretboardMap[rootNote] && InWindow(r, s.currentPositionIndex)) &&
        targetNote in fretboardMap && fretboardMap[targetNote] != []
    ensures q.Some? ==>
      q.value.rootNote == s.currentRootNote && q.value.interval == interval &&
      q.value.targetNote == FindNoteForInterval(s.currentRootNote, interval)
    ensures q.Some? ==>
      q.value.rootNote in fretboardMap && q.value.rootPosition in fretboardMap[q.value.rootNote] &&
      InWindow(q.value.rootPosition, s.currentPositionIndex)
    ensures q.Some? ==> q.value.targetNote in fretboardMap && q.value.targetPosition in fretboardMap[q.value.targetNote]
  {
    var rootNote := s.currentRootNote;
    match RootPositionInWindow(fretboardMap, rootNote, s.currentPositionIndex)
    case None => None
    case Some(rootPosition) =>
      var targetNote := FindNoteForInterval(rootNote, interval);
      match NearestListedPosition(fretboardMap, targetNote, rootPosition)
      case None => None
      case Some(targetPosition) => Some(IntervalQuestion(rootNote, targetNote, interval, rootPosition, targetPosition))
  }

  /** The state after asking for a new question: unchanged when none can be made. */
  function Regenerated(fretboardMap: map<string, seq<FretboardPosition>>, s: UiState, interval: Interval): (r: UiState)
    requires interval.semitones >= 0
    ensures r.currentRootNote == s.currentRootNote && r.currentPositionIndex == s.currentPositionIndex
    ensures r.intervalDisplayMode == s.intervalDisplayMode
    ensures NewQuestion(fretboardMap, s, interval).None? <==> r == s
    ensures NewQuestion(fretboardMap, s, interval).Some? ==>
      r.questionId == s.questionId + 1 && r.currentQuestion == NewQuestion(fretboardMap, s, interval) &&
      r.isQuestionActive && r.feedbackMessage.None?
  {
    match NewQuestion(fretboardMap, s, interval)
    case None => s
    case Some(q) => s.(questionId := s.questionId + 1, currentQuestion := Some(q),
      isQuestionActive := true, feedbackMessage := None)
  }

  /** The state after a correct answer: inactive with the feedback shown, unless already inactive. */
  function MarkedCorrect(s: UiState): (r: UiState)
    ensures !r.isQuestionActive
    ensures r.feedbackMessage == if s.isQuestionActive then Some(CorrectFeedback) else s.feedbackMessage
    ensures r.(isQuestionActive := s.isQuestionActive, feedbackMessage := s.feedbackMessage) == s
  {
    if !s.isQuestionActive then s
    else s.(isQuestionActive := false, feedbackMessage := Some(CorrectFeedback))
  }

  // ---------------------------------------------------------------------------
  // What a question drawn from the fretboard map is
  // ---------------------------------------------------------------------------

  /**
   * In a list in board order, the nearest element `NearestIndex` picks is no farther than any
   * other, and an equally near element comes after it on the board.
   */
  lemma NearestIsFirstOfEquals(ps: seq<FretboardPosition>, from: FretboardPosition, p: FretboardPosition)
    requires InBoardOrder(ps) && p in ps
    ensures 0 <= NearestIndex(ps, from) < |ps|
    ensures var t := ps[NearestIndex(ps, from)];
      Distance(t, from) <= Distance(p, from) &&
      (Distance(p, from) == Distance(t, from) ==> p == t || Before(t, p))
  {
    var i := NearestIndex(ps, from);
    var j :| 0 <= j < |ps| && ps[j] == p;
    if j > i {
      assert Before(ps[i], ps[j]);
    }
  }

  /**
   * With the fretboard map, a root position exists exactly when some position inside the
   * window sounds the root; it then sounds the root, lies in the window and comes first on the
   * board among all such positions.
   */
  lemma RootPositionIsFirstInWindow(rootNote: string, startFret: int)
    ensures RootPositionInWindow(FretboardMap(), rootNote, startFret).Some? <==>
      exists p :: OnBoard(p) && NoteAt(p) == rootNote && InWindow(p, startFret)
    ensures match RootPositionInWindow(FretboardMap(), rootNote, startFret)
      case None => true
      case Some(r) =>
        OnBoard(r) && NoteAt(r) == rootNote && InWindow(r, startFret) &&
        forall p :: OnBoard(p) && NoteAt(p) == rootNote && InWindow(p, startFret) ==> p == r || Before(r, p)
  {
    var m := FretboardMap();
    if p :| OnBoard(p) && NoteAt(p) == rootNote && InWindow(p, startFret) {
      PositionIsListed(p);
    }
    match RootPositionInWindow(m, rootNote, startFret)
    case None =>
    case Some(r) =>
      ListedPositionSoundsNote(rootNote, r);
      var window := FilterWindow(m[rootNote], startFret);
      ListInBoardOrder(rootNote);
      FilterWindowInOrder(m[rootNote], startFret);
      forall p | OnBoard(p) && NoteAt(p) == rootNote && InWindow(p, startFret)
        ensures p == r || Before(r, p)
      {
        PositionIsListed(p);
        HeadComesFirst(window, p);
      }
  }

  /**
   * With the fretboard map, a target position exists exactly for the twelve note names; it
   * then sounds the note, no position sounding the note is nearer to `from`, and an equally
   * near one comes after it on the board.
   */
  lemma TargetPositionIsNearest(note: string, from: FretboardPosition)
    ensures NearestListedPosition(FretboardMap(), note, from).Some? <==> IsNoteName(note)
    ensures match NearestListedPosition(FretboardMap(), note, from)
      case None => true
      case Some(t) =>
        OnBoard(t) && NoteAt(t) == note &&
        forall p :: OnBoard(p) && NoteAt(p) == note ==>
          Distance(t, from) <= Distance(p, from) && (Distance(p, from) == Distance(t, from) ==> p == t || Before(t, p))
  {
    var m := FretboardMap();
    FretboardMapKeys();
    match NearestListedPosition(m, note, from)
    case None =>
    case Some(t) =>
      ListedPositionSoundsNote(note, t);
      ListInBoardOrder(note);
      forall p | OnBoard(p) && NoteAt(p) == note
        ensures Distance(t, from) <= Distance(p, from) && (Distance(p, from) == Distance(t, from) ==> p == t || Before(t, p))
      {
        PositionIsListed(p);
        NearestIsFirstOfEquals(m[note], from, p);
      }
  }

  /**
   * With the fretboard map, a question can be made exactly when some position inside the
   * window sounds the root; the question then asks for the chosen interval above the root, and
   * its two positions sound the root and the target note.
   */
  lemma NewQuestionIsSound(s: UiState, interval: Interval)
    requires interval.semitones >= 0
    ensures NewQuestion(FretboardMap(), s, interval).Some? <==>
      exists p :: OnBoard(p) && NoteAt(p) == s.currentRootNote && InWindow(p, s.currentPositionIndex)
    ensures match NewQuestion(FretboardMap(), s, interval)
      case None => true
      case Some(q) =>
        q.rootNote == s.currentRootNote && q.interval == interval &&
        q.targetNote == FindNoteForInterval(q.rootNote, interval) &&
        OnBoard(q.rootPosition) && NoteAt(q.rootPosition) == q.rootNote &&
        InWindow(q.rootPosition, s.currentPositionIndex) &&
        OnBoard(q.targetPosition) && NoteAt(q.targetPosition) == q.targetNote
  {
    var m, rootNote := FretboardMap(), s.currentRootNote;
    RootPositionIsFirstInWindow(rootNote, s.currentPositionIndex);
    match RootPositionInWindow(m, rootNote, s.currentPositionIndex)
    case None =>
      assert NewQuestion(m, s, interval).None?;
    case Some(r) =>
      var targetNote := FindNoteForInterval(rootNote, interval);
      NoteAtIsNoteName(r);
      var k := NoteIndex(rootNote);
      IntervalAboveIndexedNote(rootNote, k, interval);
      assert IsNoteName(targetNote) by {
        assert ChromaticScale[(k + interval.semitones) % 12] == targetNote;
      }
      TargetPositionIsNearest(targetNote, r);
      var t := NearestListedPosition(m, targetNote, r).value;
      assert NewQuestion(m, s, interval) == Some(IntervalQuestion(rootNote, targetNote, interval, r, t));
  }

  /**
   * The question's root position is the first position of the window, in board order, that
   * sounds the root; its target position is the nearest one sounding the target note, and the
   * first on the board among equally near ones.
   */
  lemma NewQuestionPicksFirstAndNearest(s: UiState, interval: Interval)
    requires interval.semitones >= 0
    ensures match NewQuestion(FretboardMap(), s, interval)
      case None => true
      case Some(q) =>
        (forall p :: OnBoard(p) && NoteAt(p) == q.rootNote && InWindow(p, s.currentPositionIndex) ==>
          p == q.rootPosition || Before(q.rootPosition, p)) &&
        (forall p :: OnBoard(p) && NoteAt(p) == q.targetNote ==>
          Distance(q.targetPosition, q.rootPosition) <= Distance(p, q.rootPosition) &&
          (Distance(p, q.rootPosition) == Distance(q.targetPosition, q.rootPosition) ==>
            p == q.targetPosition || Before(q.targetPosition, p)))
  {
    RootPositionIsFirstInWindow(s.currentRootNote, s.currentPositionIndex);
    match NewQuestion(FretboardMap(), s, interval)
    case None =>
    case Some(q) =>
      TargetPositionIsNearest(q.targetNote, q.rootPosition);
  }

  /** The note a position sounds is one of the twelve note names. */
  lemma NoteAtIsNoteName(p: FretboardPosition)
    requires OnBoard(p)
    ensures IsNoteName(NoteAt(p)) && 0 <= NoteIndex(NoteAt(p))
  {
    NoteAtScaleIndex(p);
    IsNoteNameIsMembership(NoteAt(p));
  }

  /**
   * Every root the screen can select has a position in every window it can select, so asking
   * for a new question from such a selection always succeeds.
   */
  lemma SelectionAlwaysGivesQuestion(s: UiState, interval: Interval)
    requires interval.semitones >= 0
    requires IsNoteName(s.currentRootNote) && 0 <= s.currentPositionIndex < PositionCount
    ensures NewQuestion(FretboardMap(), s, interval).Some?
  {
    var k :| 0 <= k < |ChromaticScale| && ChromaticScale[k] == s.currentRootNote;
    var p := CellInWindow(k, s.currentPositionIndex);
    NewQuestionIsSound(s, interval);
  }

  /** The roots the screen offers are note names. */
  lemma SelectableRootsAreNoteNames()
    ensures forall i :: 0 <= i < |SelectableRootNotes| ==> IsNoteName(SelectableRootNotes[i])
  {
    forall i | 0 <= i < |SelectableRootNotes|
      ensures IsNoteName(SelectableRootNotes[i])
    {
      var k := [0, 7, 2, 9, 4, 11, 5][i];
      assert ChromaticScale[k] == SelectableRootNotes[i];
    }
  }

  /** The view model's first question: the initial state (root C, first window) always gets one. */
  lemma InitialStateAsksQuestion(interval: Interval)
    requires interval.semitones >= 0
    ensures var r := Regenerated(FretboardMap(), InitialUiState, interval);
      r.questionId == 1 && r.currentQuestion.Some? && r.isQuestionActive
  {
    assert ChromaticScale[0] == InitialUiState.currentRootNote;
    SelectionAlwaysGivesQuestion(InitialUiState, interval);
  }

  /** A correct answer settles the question once: marking it again changes nothing. */
  lemma MarkedCorrectIdempotent(s: UiState)
    ensures MarkedCorrect(MarkedCorrect(s)) == MarkedCorrect(s)
  {
  }

  // ---------------------------------------------------------------------------
  // The view model
  // ---------------------------------------------------------------------------

  class FretboardTrainerViewModel {
    /** The note-to-positions table the questions are drawn from, built once. */
    const fretboardMap: map<string, seq<FretboardPosition>>
    var uiState: UiState

    /** Builds the table, starts from the initial state and asks the first question. */
    constructor (intervalIndex: int)
      requires 0 <= intervalIndex < |Intervals|
      ensures fretboardMap == FretboardMap()
      ensures uiState == Regenerated(fretboardMap, InitialUiState, Intervals[intervalIndex])
    {
      var table := BuildFretboardMap();
      fretboardMap := table;
      uiState := InitialUiState;
      new;
      GenerateNewQuestion(intervalIndex);
    }

    method SetRootNote(newRoot: string, intervalIndex: int)
      requires 0 <= intervalIndex < |Intervals|
      modifies this
      ensures uiState == Regenerated(fretboardMap, old(uiState).(currentRootNote := newRoot), Intervals[intervalIndex])
    {
      uiState := uiState.(currentRootNote := newRoot);
      GenerateNewQuestion(intervalIndex);
    }

    method SetPosition(positionIndex: int, intervalIndex: int)
      requires 0 <= intervalIndex < |Intervals|
      modifies this
      ensures uiState == Regenerated(fretboardMap, old(uiState).(currentPositionIndex := positionIndex), Intervals[intervalIndex])
    {
      uiState := uiState.(currentPositionIndex := positionIndex);
      GenerateNewQuestion(intervalIndex);
    }

    method SetIntervalDisplayMode(mode: IntervalDisplayMode)
      modifies this
      ensures uiState == old(uiState).(intervalDisplayMode := mode)
    {
      uiState := uiState.(intervalDisplayMode := mode);
    }

    method MarkAsCorrect()
      modifies this
      ensures uiState == MarkedCorrect(old(uiState))
    {
      if !uiState.isQuestionActive {
        return;
      }
      uiState := uiState.(isQuestionActive := false, feedbackMessage := Some(CorrectFeedback));
    }

    /**
     * Picks the first listed root position inside the window, moves up by the interval, and
     * shows the target at its listed position nearest to the root; returns early, changing
     * nothing, when a step finds nothing.
     */
    method GenerateNewQuestion(intervalIndex: int)
      requires 0 <= intervalIndex < |Intervals|
      modifies this
      ensures uiState == Regenerated(fretboardMap, old(uiState), Intervals[intervalIndex])
    {
      var rootNote := uiState.currentRootNote;
      var startFret := uiState.currentPositionIndex;
      var randomInterval := Intervals[intervalIndex];
      CatalogueIntervalsWithinOctave(intervalIndex);

      var rootPosition := RootPositionInWindow(fretboardMap, rootNote, startFret);
      if rootPosition.None? {
        return;
      }
      var targetNote := FindNoteForInterval(rootNote, randomInterval);
      var targetPosition := NearestListedPosition(fretboardMap, targetNote, rootPosition.value);
      if targetPosition.None? {
        return;
      }
      var newQuestion := IntervalQuestion(rootNote, targetNote, randomInterval, rootPosition.value, targetPosition.value);
      uiState := uiState.(questionId := uiState.questionId + 1, currentQuestion := Some(newQuestion),
        isQuestionActive := true, feedbackMessage := None);
    }
  }
}

=== FILE: music_theory.dfy ===
/**
 * The music-theory tables of the fretboard learner: the chromatic scale, the interval
 * catalogue, keys built from scale patterns, interval transposition and the staff offset of
 * a note letter. The fretboard map and the fret windows built on it are in module Fretboard.
 */
module MusicTheory {

  /** An interval: its display names and its width in semitones. */
  datatype Interval = Interval(name: string, symbol: string, roman: string, semitones: int)

  /** A key: its display name and its notes in scale order. */
  datatype Key = Key(name: string, notes: seq<string>)

  /** A place on the neck. String 1 is the high E string, string 6 the low E string. */
  datatype FretboardPosition = FretboardPosition(stringNumber: int, fret: int)

  const ChromaticScale: seq<string> := ["C", "C#", "D", "D#", "E", "F", "F#", "G", "G#", "A", "A#", "B"]

  /** The intervals a question may ask for. */
  const Intervals: seq<Interval> := [
    Interval("Minor 2nd", "m2", "ii", 1),
    Interval("Major 2nd", "M2", "II", 2),
    Interval("Minor 3rd", "m3", "iii", 3),
    Interval("Major 3rd", "M3", "III", 4),
    Interval("Perfect 4th", "P4", "IV", 5),
    Interval("Perfect 5th", "P5", "V", 7)
  ]

  /** Scale patterns, in semitones above the root. */
  const MajorScalePattern: seq<int> := [0, 2, 4, 5, 7, 9, 11]
  const NaturalMinorScalePattern: seq<int> := [0, 2, 3, 5, 7, 8, 10]

  /** Open-string notes, string 1 first. */
  const StandardTuning: seq<string> := ["E", "B", "G", "D", "A", "E"]

  // ---------------------------------------------------------------------------
  // Note names and their indices in the chromatic scale
  // ---------------------------------------------------------------------------

  /** Index of the first occurrence of `x` in `s`, or -1 when `s` does not contain it. */
  function IndexOf(s: seq<string>, x: string): (i: int)
    ensures -1 <= i < |s|
    ensures i == -1 ==> forall j :: 0 <= j < |s| ==> s[j] != x
    ensures 0 <= i ==> s[i] == x && forall j :: 0 <= j < i ==> s[j] != x
  {
    IndexFrom(s, x, 0)
  }

  /**
   * The search of `IndexOf`, from index `from` onwards. Naming `x` in the decreases clause
   * keeps the verifier from unrolling the search over a literal `s` for a symbolic `x`.
   */
  function IndexFrom(s: seq<string>, x: string, from: nat): (i: int)
    requires from <= |s|
    decreases |s| - from, x
    ensures i == -1 || from <= i < |s|
    ensures i == -1 ==> forall j :: from <= j < |s| ==> s[j] != x
    ensures 0 <= i ==> s[i] == x && forall j :: from <= j < i ==> s[j] != x
  {
    if from == |s| then -1
    else if s[from] == x then from
    else IndexFrom(s, x, from + 1)
  }

  /** `note` is one of the twelve names of the chromatic scale. */
  predicate IsNoteName(note: string)
  {
    exists k :: 0 <= k < |ChromaticScale| && ChromaticScale[k] == note
  }

  /** Position of a note name in the chromatic scale, -1 for an unknown name. */
  function NoteIndex(note: string): (i: int)
    ensures -1 <= i < |ChromaticScale|
    ensures i == -1 ==> forall k :: 0 <= k < |ChromaticScale| ==> ChromaticScale[k] != note
    ensures 0 <= i ==> ChromaticScale[i] == note
  {
    IndexOf(ChromaticScale, note)
  }

  predicate Distinct(s: seq<string>)
  {
    forall i, j :: 0 <= i < j < |s| ==> s[i] != s[j]
  }

  lemma ChromaticScaleDistinct()
    ensures Distinct(ChromaticScale)
  {
  }

  /** Every name of the scale is found at its own place. */
  lemma NoteIndexOfScale(k: int)
    requires 0 <= k < |ChromaticScale|
    ensures NoteIndex(ChromaticScale[k]) == k
  {
    ChromaticScaleDistinct();
  }

  /** A name of the scale is one of its elements. */
  lemma IsNoteNameIsMembership(note: string)
    ensures IsNoteName(note) <==> note in ChromaticScale
  {
  }

  // ---------------------------------------------------------------------------
  // Keys
  // ---------------------------------------------------------------------------

  /** The pattern a scale type selects: "Major", or the natural minor for any other name. */
  function ScalePattern(scaleType: string): (pattern: seq<int>)
    ensures scaleType == "Major" ==> pattern == MajorScalePattern
    ensures scaleType != "Major" ==> pattern == NaturalMinorScalePattern
  {
    if scaleType == "Major" then MajorScalePattern else NaturalMinorScalePattern
  }

  /**
   * The key of `rootNote`: its name is the root and the scale type separated by a space; its
   * notes are the root followed by six more scale notes, or none when the root is unknown.
   */
  function GenerateKey(rootNote: string, scaleType: string): (key: Key)
    ensures key.name == rootNote + " " + scaleType
  {
    KeyOnIndex(rootNote, scaleType, NoteIndex(rootNote))
  }

  /** The key whose root has index `rootIndex` in the chromatic scale (-1: not found). */
  function KeyOnIndex(rootNote: string, scaleType: string, rootIndex: int): (key: Key)
    requires -1 <= rootIndex < |ChromaticScale|
    ensures key.name == rootNote + " " + scaleType
    ensures rootIndex == -1 ==> key.notes == []
    ensures 0 <= rootIndex ==> |key.notes| == |ScalePattern(scaleType)|
    ensures 0 <= rootIndex ==> forall i :: 0 <= i < |key.notes| ==>
      key.notes[i] == ChromaticScale[(rootIndex + ScalePattern(scaleType)[i]) % 12]
  {
    if rootIndex == -1 then Key(rootNote + " " + scaleType, [])
    else Key(rootNote + " " + scaleType, NotesAbove(rootIndex, ScalePattern(scaleType)))
  }

  /** The notes at the given semitone offsets above the note with index `rootIndex`, in order. */
  function NotesAbove(rootIndex: int, offsets: seq<int>): (notes: seq<string>)
    requires 0 <= rootIndex < |ChromaticScale|
    requires forall i :: 0 <= i < |offsets| ==> offsets[i] >= 0
    ensures |notes| == |offsets|
    ensures forall i :: 0 <= i < |offsets| ==> notes[i] == ChromaticScale[(rootIndex + offsets[i]) % 12]
  {
    seq(|offsets|, i requires 0 <= i < |offsets| => ChromaticScale[(rootIndex + offsets[i]) % |ChromaticScale|])
  }

  /** The key on note k of the scale holds the notes its pattern's offsets lead to from k. */
  lemma KeyOnScaleNote(k: int, scaleType: string)
    requires 0 <= k < |ChromaticScale|
    ensures GenerateKey(ChromaticScale[k], scaleType).notes == NotesAbove(k, ScalePattern(scaleType))
  {
    NoteIndexOfScale(k);
  }

  /** A root that is not a note name gives a key without notes. */
  lemma KeyOnUnknownRoot(rootNote: string, scaleType: string)
    requires !IsNoteName(rootNote)
    ensures GenerateKey(rootNote, scaleType).notes == []
  {
  }

  /** Both patterns start on the root and climb strictly within the octave. */
  predicate ClimbsWithinOctave(pattern: seq<int>)
  {
    |pattern| > 0 && pattern[0] == 0 &&
    (forall i, j :: 0 <= i < j < |pattern| ==> pattern[i] < pattern[j]) &&
    (forall i :: 0 <= i < |pattern| ==> 0 <= pattern[i] < 12)
  }

  lemma PatternsClimbWithinOctave(scaleType: string)
    ensures |ScalePattern(scaleType)| == 7 && ClimbsWithinOctave(ScalePattern(scaleType))
  {
  }

  /** The first note of a key on a note of the scale is its root. */
  lemma KeyStartsOnRoot(k: int, scaleType: string)
    requires 0 <= k < |ChromaticScale|
    ensures var notes := GenerateKey(ChromaticScale[k], scaleType).notes;
      |notes| == 7 && notes[0] == ChromaticScale[k]
  {
    KeyOnScaleNote(k, scaleType);
    PatternsClimbWithinOctave(scaleType);
    NotesAboveRoot(k, ScalePattern(scaleType));
  }

  lemma NotesAboveRoot(k: int, pattern: seq<int>)
    requires 0 <= k < |ChromaticScale| && ClimbsWithinOctave(pattern)
    ensures NotesAbove(k, pattern)[0] == ChromaticScale[k]
  {
    assert (k + pattern[0]) % 12 == k;
  }

  /** A key on a note of the scale has seven different notes. */
  lemma KeyNotesDistinct(k: int, scaleType: string)
    requires 0 <= k < |ChromaticScale|
    ensures Distinct(GenerateKey(ChromaticScale[k], scaleType).notes)
  {
    KeyOnScaleNote(k, scaleType);
    PatternsClimbWithinOctave(scaleType);
    NotesAboveDistinct(k, ScalePattern(scaleType));
  }

  /** Offsets that climb within one octave lead to different notes. */
  lemma NotesAboveDistinct(k: int, pattern: seq<int>)
    requires 0 <= k < |ChromaticScale| && ClimbsWithinOctave(pattern)
    ensures Distinct(NotesAbove(k, pattern))
  {
    var notes := NotesAbove(k, pattern);
    forall i, j | 0 <= i < j < |notes|
      ensures notes[i] != notes[j]
    {
      var a, b := (k + pattern[i]) % 12, (k + pattern[j]) % 12;
      ModDistinct(k, pattern[i], pattern[j]);
      ScaleNamesDiffer(a, b);
      assert notes[i] == ChromaticScale[a] && notes[j] == ChromaticScale[b];
    }
  }

  /** Different places of the scale hold different names. */
  lemma ScaleNamesDiffer(a: int, b: int)
    requires 0 <= a < |ChromaticScale| && 0 <= b < |ChromaticScale| && a != b
    ensures ChromaticScale[a] != ChromaticScale[b]
  {
    NoteIndexOfScale(a);
    NoteIndexOfScale(b);
  }

  /** The natural minor key nine semitones above a major root uses the same seven notes. */
  lemma RelativeMinorSharesNotes(k: int)
    requires 0 <= k < |ChromaticScale|
    ensures var major := GenerateKey(ChromaticScale[k], "Major").notes;
      var minor := GenerateKey(ChromaticScale[(k + 9) % 12], "Minor").notes;
      forall n :: n in major <==> n in minor
  {
    KeyOnScaleNote(k, "Major");
    KeyOnScaleNote((k + 9) % 12, "Minor");
    RelativeMinorNotes(k);
  }

  lemma RelativeMinorNotes(k: int)
    requires 0 <= k < |ChromaticScale|
    ensures var major := NotesAbove(k, MajorScalePattern);
      var minor := NotesAbove((k + 9) % 12, NaturalMinorScalePattern);
      forall n :: n in major <==> n in minor
  {
    var major := NotesAbove(k, MajorScalePattern);
    var minor := NotesAbove((k + 9) % 12, NaturalMinorScalePattern);
    forall n | n in major
      ensures n in minor
    {
      var i :| 0 <= i < |major| && major[i] == n;
      var j := if i < 5 then i + 2 else i - 5;
      RelativeMinorDegree(k, j);
    }
    forall n | n in minor
      ensures n in major
    {
      var j :| 0 <= j < |minor| && minor[j] == n;
      RelativeMinorDegree(k, j);
    }
  }

  /** Degree j of the relative minor is degree j + 5 (mod 7) of the major key. */
  lemma RelativeMinorDegree(k: int, j: int)
    requires 0 <= k < 12 && 0 <= j < 7
    ensures NotesAbove((k + 9) % 12, NaturalMinorScalePattern)[j] ==
      NotesAbove(k, MajorScalePattern)[if j < 2 then j + 5 else j - 2]
  {
    var q := if j < 2 then j + 5 else j - 2;
    var minorRoot := (k + 9) % 12;
    RelativeMinorOffset(k, j, q);
    var index := (k + MajorScalePattern[q]) % 12;
    assert NotesAbove(minorRoot, NaturalMinorScalePattern)[j] == ChromaticScale[index];
    assert NotesAbove(k, MajorScalePattern)[q] == ChromaticScale[index];
  }

  /** Nine semitones plus minor step j is major step j + 5 (mod 7), modulo the octave. */
  lemma RelativeMinorOffset(k: int, j: int, q: int)
    requires 0 <= k < 12 && 0 <= j < 7 && q == if j < 2 then j + 5 else j - 2
    ensures ((k + 9) % 12 + NaturalMinorScalePattern[j]) % 12 == (k + MajorScalePattern[q]) % 12
  {
    var m := NaturalMinorScalePattern[j];
    var c := if j < 2 then 0 else 1;
    assert 9 + m == MajorScalePattern[q] + 12 * c;
    ModAddLeft(k + 9, m, k + 9 + m);
    ModShift(k + MajorScalePattern[q], c);
  }

  // ---------------------------------------------------------------------------
  // Intervals
  // ---------------------------------------------------------------------------

  /**
   * The note `interval` above `rootNote`, wrapping around the octave; an unknown root is
   * returned unchanged.
   */
  function FindNoteForInterval(rootNote: string, interval: Interval): (note: string)
    requires interval.semitones >= 0
    ensures var rootIndex := NoteIndex(rootNote);
      (rootIndex == -1 ==> note == rootNote) &&
      (rootIndex != -1 ==> NoteIndex(note) == (rootIndex + interval.semitones) % 12)
  {
    var rootIndex := NoteIndex(rootNote);
    if rootIndex == -1 then rootNote else ScaleNote((rootIndex + interval.semitones) % |ChromaticScale|)
  }

  /** Note `i` of the chromatic scale, which looking up gives back `i`. */
  function ScaleNote(i: int): (note: string)
    requires 0 <= i < |ChromaticScale|
    ensures NoteIndex(note) == i
  {
    NoteIndexOfScale(i);
    ChromaticScale[i]
  }

  /** A root that is not a note name comes back unchanged, whatever the interval. */
  lemma UnknownRootUnchanged(rootNote: string, interval: Interval)
    requires !IsNoteName(rootNote) && interval.semitones >= 0
    ensures FindNoteForInterval(rootNote, interval) == rootNote
  {
  }

  /** From note k of the scale, the interval lands on note (k + semitones) mod 12. */
  lemma IntervalAboveScaleNote(k: int, interval: Interval)
    requires 0 <= k < |ChromaticScale| && interval.semitones >= 0
    ensures FindNoteForInterval(ChromaticScale[k], interval) == ChromaticScale[(k + interval.semitones) % 12]
  {
    NoteIndexOfScale(k);
    IntervalAboveIndexedNote(ChromaticScale[k], k, interval);
  }

  lemma IntervalAboveIndexedNote(rootNote: string, k: int, interval: Interval)
    requires 0 <= k < |ChromaticScale| && interval.semitones >= 0 && NoteIndex(rootNote) == k
    ensures FindNoteForInterval(rootNote, interval) == ChromaticScale[(k + interval.semitones) % 12]
  {
    var note := FindNoteForInterval(rootNote, interval);
    assert NoteIndex(note) == (k + interval.semitones) % 12;
  }

  /** Moving up by a and then by b is moving up by a + b, from any root. */
  lemma IntervalsCompose(rootNote: string, a: Interval, b: Interval, ab: Interval)
    requires a.semitones >= 0 && b.semitones >= 0 && ab.semitones == a.semitones + b.semitones
    ensures FindNoteForInterval(FindNoteForInterval(rootNote, a), b) == FindNoteForInterval(rootNote, ab)
  {
    var k := NoteIndex(rootNote);
    if k != -1 {
      var m := (k + a.semitones) % 12;
      assert (m + b.semitones) % 12 == (k + ab.semitones) % 12 by {
        ModAddLeft(k + a.semitones, b.semitones, k + ab.semitones);
      }
      IntervalAboveIndexedNote(rootNote, k, a);
      NoteIndexOfScale(m);
      IntervalAboveIndexedNote(ChromaticScale[m], m, b);
      IntervalAboveIndexedNote(rootNote, k, ab);
    }
  }

  /** An octave (or no interval at all) leads back to the root. */
  lemma OctaveReturnsToRoot(rootNote: string, interval: Interval)
    requires interval.semitones >= 0 && interval.semitones % 12 == 0
    ensures FindNoteForInterval(rootNote, interval) == rootNote
  {
    var k := NoteIndex(rootNote);
    if k != -1 {
      assert (k + interval.semitones) % 12 == k by {
        ModAddLeft(interval.semitones, k, k + interval.semitones);
      }
      IntervalAboveIndexedNote(rootNote, k, interval);
    }
  }

  /** From a note of the scale, an interval lands back on that note exactly when it spans whole octaves. */
  lemma IntervalKeepsNoteIffOctaves(k: int, interval: Interval)
    requires 0 <= k < |ChromaticScale| && interval.semitones >= 0
    ensures FindNoteForInterval(ChromaticScale[k], interval) == ChromaticScale[k] <==> interval.semitones % 12 == 0
  {
    var m := (k + interval.semitones) % 12;
    IntervalAboveScaleNote(k, interval);
    if interval.semitones % 12 == 0 {
      OctaveReturnsToRoot(ChromaticScale[k], interval);
    } else {
      assert m != k by {
        ModAddLeft(interval.semitones, k, k + interval.semitones);
        ModBelow24(interval.semitones % 12 + k);
      }
      ScaleNamesDiffer(m, k);
    }
  }

  /** Every interval of the catalogue is between one and seven semitones wide. */
  lemma CatalogueIntervalsWithinOctave(i: int)
    requires 0 <= i < |Intervals|
    ensures 1 <= Intervals[i].semitones <= 7
  {
  }

  /** A catalogue interval above a note of the scale never lands back on that note. */
  lemma CatalogueTargetDiffers(k: int, i: int)
    requires 0 <= k < |ChromaticScale| && 0 <= i < |Intervals|
    ensures FindNoteForInterval(ChromaticScale[k], Intervals[i]) != ChromaticScale[k]
  {
    CatalogueIntervalsWithinOctave(i);
    IntervalKeepsNoteIffOctaves(k, Intervals[i]);
  }

  // ---------------------------------------------------------------------------
  // The staff
  // ---------------------------------------------------------------------------

  /** Vertical staff offset of each natural note letter. */
  const NoteToStaffPosition: map<string, real> :=
    map["C" := 5.5, "D" := 4.5, "E" := 3.5, "F" := 2.5, "G" := 1.5, "A" := 0.5, "B" := -0.5]

  /** The staff offset of a note: that of its first character, or 0 for an unknown letter. */
  function GetStaffPosition(note: string): (position: real)
    requires |note| > 0
    ensures [note[0]] in NoteToStaffPosition ==> position == NoteToStaffPosition[[note[0]]]
    ensures [note[0]] !in NoteToStaffPosition ==> position == 0.0
  {
    var baseNote := [note[0]];
    if baseNote in NoteToStaffPosition then NoteToStaffPosition[baseNote] else 0.0
  }

  /** Only the first character counts: an accidental or an octave suffix changes nothing. */
  lemma StaffPositionIgnoresSuffix(note: string, suffix: string)
    requires |note| > 0
    ensures GetStaffPosition(note + suffix) == GetStaffPosition(note)
  {
    assert (note + suffix)[0] == note[0];
  }

  /** A sharp of the scale sits on the line or space of the natural note it raises. */
  lemma SharpSharesNaturalStaffPosition(k: int)
    requires 0 < k < |ChromaticScale| && |ChromaticScale[k]| == 2
    ensures GetStaffPosition(ChromaticScale[k]) == GetStaffPosition(ChromaticScale[k - 1])
  {
  }

  /** Going up the natural notes C, D, E, F, G, A, B the offset falls by one step each time. */
  lemma NaturalNotesDescendOneStep()
    ensures var naturals := ["C", "D", "E", "F", "G", "A", "B"];
      forall i :: 0 < i < |naturals| ==> GetStaffPosition(naturals[i]) == GetStaffPosition(naturals[i - 1]) - 1.0
  {
  }

  // ---------------------------------------------------------------------------
  // Arithmetic modulo the octave
  // ---------------------------------------------------------------------------

  lemma ModAddLeft(x: int, y: int, z: int)
    requires x >= 0 && y >= 0 && z == x + y
    ensures (x % 12 + y) % 12 == z % 12
  {
    var q := x / 12;
    assert x == 12 * q + x % 12;
    assert z == (x % 12 + y) + 12 * q;
  }

  lemma ModDistinct(k: int, a: int, b: int)
    requires 0 <= k < 12 && 0 <= a < b < 12
    ensures (k + a) % 12 != (k + b) % 12
  {
    ModBelow24(k + a);
    ModBelow24(k + b);
  }

  lemma ModShift(x: int, n: nat)
    requires x >= 0
    ensures (x + 12 * n) % 12 == x % 12
  {
  }

  lemma ModBelow24(x: int)
    requires 0 <= x < 24
    ensures x % 12 == if x < 12 then x else x - 12
  {
  }
}

=== FILE: pitch_to_note.dfy ===
/**
 * Naming the note a detected pitch belongs to. The floating-point step (twelve times the
 * base-2 logarithm of the frequency over 440 Hz, plus 69, rounded) is done by the caller and
 * handed in as `roundedMidiNote`; this module models the guards and the name lookup around it.
 */
module PitchToNote {
  import opened Wrappers
  import MusicTheory

  const NoteNames: seq<string> := ["C", "C#", "D", "D#", "E", "F", "F#", "G", "G#", "A", "A#", "B"]

  /** MIDI number of A4, the 440 Hz reference. */
  const A4MidiNote := 69

  /** The highest note number of the MIDI range 0..127. */
  const MaxMidiNote := 127

  /**
   * The name of the note sounding at `frequency`, given the MIDI number the frequency rounds
   * to: none for a non-positive frequency or a number outside the MIDI range, otherwise the
   * name of the number's pitch class.
   */
  function FrequencyToNoteName(frequency: real, roundedMidiNote: int): (name: Option<string>)
    ensures name.Some? <==> frequency > 0.0 && 0 <= roundedMidiNote <= MaxMidiNote
    ensures name.Some? ==> name.value == MusicTheory.ChromaticScale[roundedMidiNote % 12]
  {
    if frequency <= 0.0 then None
    else if roundedMidiNote < 0 || roundedMidiNote > MaxMidiNote then None
    else
      var noteIndex := roundedMidiNote % 12;
      Some(NoteNames[noteIndex])
  }

  /** The converter's names are the chromatic scale of the quiz, in the same order. */
  lemma NoteNamesAreChromaticScale()
    ensures NoteNames == MusicTheory.ChromaticScale
  {
  }

  /** Every name the converter produces is a note name of the quiz. */
  lemma NamesAreNoteNames(frequency: real, roundedMidiNote: int)
    ensures var name := FrequencyToNoteName(frequency, roundedMidiNote);
      name.Some? ==> MusicTheory.IsNoteName(name.value)
  {
    if FrequencyToNoteName(frequency, roundedMidiNote).Some? {
      assert MusicTheory.ChromaticScale[roundedMidiNote % 12] == FrequencyToNoteName(frequency, roundedMidiNote).value;
    }
  }

  /** Notes an octave apart get the same name. */
  lemma OctaveInvariant(frequency: real, frequencyAbove: real, m: int)
    requires frequency > 0.0 && frequencyAbove > 0.0
    requires 0 <= m && m + 12 <= MaxMidiNote
    ensures FrequencyToNoteName(frequencyAbove, m + 12) == FrequencyToNoteName(frequency, m)
  {
    assert (m + 12) % 12 == m % 12;
  }

  /**
   * A pitch is named after note k of the chromatic scale exactly when its frequency is positive
   * and its MIDI number is in range and k above a multiple of twelve; so a heard note matches a
   * quiz target only on the target's own pitch class.
   */
  lemma NamedAfterScaleNote(frequency: real, roundedMidiNote: int, k: int)
    requires 0 <= k < |MusicTheory.ChromaticScale|
    ensures FrequencyToNoteName(frequency, roundedMidiNote) == Some(MusicTheory.ChromaticScale[k]) <==>
      frequency > 0.0 && 0 <= roundedMidiNote <= MaxMidiNote && roundedMidiNote % 12 == k
  {
    if frequency > 0.0 && 0 <= roundedMidiNote <= MaxMidiNote && roundedMidiNote % 12 != k {
      MusicTheory.ScaleNamesDiffer(roundedMidiNote % 12, k);
    }
  }

  /** A4 (MIDI 69, 440 Hz) is named A, and the semitone above it A#. */
  lemma ConcertPitchNames()
    ensures FrequencyToNoteName(440.0, A4MidiNote) == Some(MusicTheory.ChromaticScale[9])
    ensures MusicTheory.ChromaticScale[9] == "A"
    ensures FrequencyToNoteName(466.16, A4MidiNote + 1) == Some(MusicTheory.ChromaticScale[10])
    ensures MusicTheory.ChromaticScale[10] == "A#"
  {
  }
}

=== FILE: wrappers.dfy ===
/** The optional value used where the app returns a nullable result. */
module Wrappers {

  datatype Option<+T> = None | Some(value: T)
}
